=== FILE: README.md ===
# Blokus search: a verified model

This project models the search core of a Blokus puzzle solver.

- **Generic graph search** (`search.py`):
  - the search-problem interface (start state, goal test, successor triples);
  - breadth-first search with a FIFO fringe;
  - uniform-cost search with an extract-min fringe;
  - the trivial `null_heuristic`;
  - the `bfs`/`dfs`/`astar`/`ucs` abbreviations.

  Both searches mark a state visited when it is generated. Each keeps a backtrack table of (node, parent index) entries and rebuilds the plan by walking parent indices back to entry 0.
- **The one-player Blokus problems** (`blokus_problems.py`):
  - Fill: play every piece.
  - Corners: occupy the three corners away from the origin.
  - Cover: occupy every target cell.

  For each problem the model covers the goal test, the successor list with its step costs, and `get_cost_of_actions`.
- **The greedy `ClosestLocationSearch`**: `next_target` picks the remaining target nearest, in Manhattan distance, to any acquired point. `solve` covers one target at a time with uniform-cost search.

The Dafny modules follow the source:

| module | file | models |
|---|---|---|
| `Search` | `search.dfy` | `search.py` |
| `Board` | `board.dfy` | the board: a grid, piece flags and move rules |
| `BlokusProblems` | `blokus_problems.dfy` | the three problem classes |
| `ClosestLocation` | `closest.dfy` | `ClosestLocationSearch` |

`board.py` is not part of this model. A board is a map from (row, column) to the owning player, and a missing key reads as `EMPTY_TILE` (-1). A board also carries the per-piece "still unplayed" flags of player 0. Legal-move generation and move application enter as the two function fields of `Board.Rules`.

The searches need a finite state space to terminate. Each takes a ghost set `universe` that contains the start and is closed under successors. The source pops from an empty fringe and raises. The model instead returns `Exhausted` and proves that no goal is reachable then.

Proved properties:

- **Searches.** Both searches return the empty plan when the start is a goal. Any plan they return replays through the successor relation from the start to a goal. In the backtrack table, each parent index is smaller than its own index and no state appears twice. Breadth-first search returns a plan no longer than any plan from the start to a goal. With non-negative step costs, uniform-cost search pops nodes in non-decreasing cost order.
- **Blokus problems.** Each goal test is equivalent to its declarative reading. Each problem's `get_cost_of_actions` equals the sum of the step costs that its successor function emits along a replayed plan.
- **`next_target`.** It returns a true arg-min over (target, acquired point) pairs.

## Model

| member | source | states |
|---|---|---|
| Search.BfsExpand | search.py:93-98 | after expanding a node, every successor is visited; the nodes appended to the fringe and to the backtrack table are exactly the successors that were neither visited before nor listed earlier in the same successor list, in the order the successor function lists them, each with the expanded entry as parent; the table still holds each state once |
| Search.BfsPushOne | search.py:94-97 | handling one more successor appends it to the in-order record of pushed successors exactly when its state was not yet visited, and otherwise leaves the table and the visited set as they were; the visited set grows by at most that state |
| Search.InOrderStep | search.py:94-97 | the in-order record of pushed successors grows by the next successor exactly when its state is not yet visited |
| Search.BfsPlan | search.py:101-106 | walking parent indices from an entry back to entry 0 and reversing the actions yields a plan that replays from the start to that entry's state; entry 0 yields the empty plan; the plan's length is the entry's depth in the parent tree |
| Search.BfsRun | search.py:82-99 | the loop ends on a goal at the fringe head or on an empty fringe; the k-th popped node is backtrack entry k; every popped non-goal had all its successors visited; a goal start stops with tracker 0 |
| Search.BfsExhaustedNoGoal | search.py:89-99 | when the fringe runs empty, no plan from the start reaches a goal |
| Search.BreadthFirstSearch | search.py:72-106 | a goal start gives the empty plan; a returned plan replays from the start to the popped goal state and is no longer than any plan from the start to a goal (shallowest first); the table lists each state once, every parent index is smaller than its own, and parent indices never decrease along the table; the nodes expanded before the goal are not goals; an exhausted search means no goal is reachable |
| Search.LayeredAfterExpand | search.py:93-99 | expanding entry `tracker` keeps the table layered: every parent index is below the count of expanded entries, parent indices never decrease along the table, and each successor of an expanded entry is in the table at an entry whose parent is that expanded entry or an earlier one |
| Search.BfsRound | search.py:89-99 | one pop-and-expand round of a non-goal head keeps the whole loop invariant, the layering included, with one more entry expanded |
| Search.DepthMonotone | search.py:93-99 | with parent indices that never decrease, an entry's depth in the parent tree never decreases along the table |
| Search.ShallowSeen | search.py:89-99 | a state reachable from the start by a plan no longer than the depth of the next entry to expand is already in the table, at a depth no greater than that plan's length |
| Search.BfsShortest | search.py:74-106 | when every entry before entry `tracker` is a non-goal whose successors all sit in the table at entries whose parent is no later than it, with parent indices sorted, a plan as long as entry `tracker`'s depth is no longer than any plan from the start to a goal |
| Search.ExtractMin | search.py:131 | the popped element has least priority among all queued elements, and the rest of the queue is the queue without it |
| Search.MinIndex | search.py:131 | a position of least priority exists in every non-empty queue |
| Search.UcsExpand | search.py:135-140 | every successor of the popped node is visited; each pushed node is a fresh, distinct successor whose priority equals its cost from the root, which is the parent's cost plus the step cost; its parent ID is the current counter |
| Search.UcsPlan | search.py:143-149 | following parent IDs from an entry back to entry 0 gives a plan that replays from the start to that entry's state at exactly its recorded cost from the root |
| Search.UcsExhaustedNoGoal | search.py:130-141 | when the priority queue runs empty, no plan from the start reaches a goal |
| Search.UcsSettles | search.py:130-141 | the loop state implies the settled summary: the counter-th popped node is entry `counter`, parents are earlier pops, states are distinct, and with non-negative costs the popped costs never decrease; for the final queue, every queued node links to a popped parent at priority equal to its cost, every successor of an expanded node was popped or is queued, and with non-negative costs nothing queued is cheaper than the last pop |
| Search.UcsRun | search.py:123-141 | the loop stops on a goal as the last pop or on an empty queue with no goal reachable; a goal start stops at counter 0; it returns the final queue, in which every successor of an expanded node that was not popped is still queued and, with non-negative costs, no queued node is cheaper than the last pop |
| Search.UniformCostSearch | search.py:111-149 | a goal start gives the empty plan; a returned plan replays from the start to the last popped node, a goal, at that node's cost from the root; the earlier pops are not goals; parent IDs point to earlier pops; each state is popped at most once; with non-negative step costs, popped costs are non-decreasing and no node left in the returned queue is cheaper than the last pop, so each pop was least among the queued nodes; every successor of an expanded node was popped or is still queued; an exhausted queue means no goal is reachable |
| Search.NullHeuristicAdmissible | search.py:153-158 | with non-negative step costs, the null heuristic never exceeds the cost of a plan to a goal |
| Search.NullHeuristicConsistent | search.py:153-158 | with non-negative step costs, the null heuristic satisfies h(s) <= cost(s, s') + h(s') on every edge |
| Search.SearchBy | search.py:169-173 | `bfs` and `ucs` return a search result: a goal start gives the empty plan, a found plan replays from the start to a goal (a shortest such plan for `bfs`, at a definite cost for `ucs`), and an exhausted search means no goal is reachable; `dfs` and `astar` have no implementation and return nothing |
| Board.NewBoard | blokus_problems.py:14-15 | a freshly built board has every cell empty and every piece of the list unplayed |
| BlokusProblems.NewProblem | blokus_problems.py:144-147 | a new problem of any kind (Fill and Corners build theirs the same way, at lines 14-16 and 59-61) keeps its kind, has expanded nothing, and starts on a board of the given size and starting point with every cell empty |
| BlokusProblems.FillGoal | blokus_problems.py:24-29 | a Fill state is a goal exactly when no flag of player 0 marks a piece as still unplayed |
| BlokusProblems.CornersGoal | blokus_problems.py:69-73 | a Corners state is a goal exactly when each of the three corner cells away from the origin is occupied |
| BlokusProblems.IsGoal | blokus_problems.py:155-165 | the goal test chosen by the problem kind: no unplayed piece for Fill (lines 24-29), every corner cell occupied for Corners (lines 69-73), every target cell occupied for Cover |
| BlokusProblems.AnyLeft | blokus_problems.py:29 | Python's `any` over the flags is true exactly when some flag is set |
| BlokusProblems.FillGoalIffNoneLeft | blokus_problems.py:24-29 | a Fill state is a goal exactly when player 0 has no unplayed piece |
| BlokusProblems.CornersGoalCells | blokus_problems.py:69-73 | a Corners state is a goal exactly when (0, w-1), (h-1, 0) and (h-1, w-1) are occupied; on a board at least 2 by 2, the origin is not inspected and its contents never change the verdict |
| BlokusProblems.Covers | blokus_problems.py:155-165 | a Cover state is a goal exactly when every target cell is occupied, so an empty target list is always a goal |
| BlokusProblems.GoalStaysReached | blokus_problems.py:69-73 | when moves only add tiles, a reached Corners goal (lines 69-73) or Cover goal (lines 155-165) stays reached after any further move on a board of the same size |
| BlokusProblems.GetSuccessors | blokus_problems.py:31-43 | one successor per legal move, in order: the board after the move, the move, and step cost 1 for Fill or the piece's tile count otherwise; the expansion counter rises by exactly one and nothing else in the problem changes |
| BlokusProblems.FillPlanCost | blokus_problems.py:45-52 | with step cost 1, a Fill plan costs its number of actions |
| BlokusProblems.GetCostOfActions | blokus_problems.py:89-99 | the accumulated cost is the sum of the step costs of the plan: its length for Fill, the sum of the tile counts for Corners and Cover; never negative |
| BlokusProblems.PlanCostSnoc | blokus_problems.py:188-191 | extending a plan by one move adds exactly that move's step cost |
| BlokusProblems.CostMatchesSteps | blokus_problems.py:181-191 | along any plan replayed through the successor function, the emitted step costs sum to what `get_cost_of_actions` returns for that plan |
| BlokusProblems.SearchProblemClosed | blokus_problems.py:167-179 | every successor is the result of a legal move, so a board set closed under legal moves is closed under successors, and no step cost is negative |
| BlokusProblems.CoverSuccessorsAgree | blokus_problems.py:167-179 | two Cover problems have the same successor lists whatever their targets |
| BlokusProblems.StaysCovered | blokus_problems.py:155-165 | when moves only add tiles, a cell occupied before a replayed plan is still occupied after it |
| ClosestLocation.Manhattan | blokus_problems.py:275 | the distance between two cells is zero exactly when they are equal, and is at least the gap in either coordinate |
| ClosestLocation.NextTarget | blokus_problems.py:269-279 | fails its assertion exactly when `acquired` or the remaining targets are empty; otherwise returns a remaining target whose distance to some acquired point is minimal over all (target, acquired point) pairs |
| ClosestLocation.SubProblemAsWritten | blokus_problems.py:259-260 | the sub-problem for a target is a single-target Cover problem on a board with every cell empty |
| ClosestLocation.StaleStartCounterexample | blokus_problems.py:238-261 | on a concrete board where the one piece must first cover the start, every solution of each as-written sub-problem is the plan [domino], and the concatenation [domino, domino] does not replay from the fresh board |
| ClosestLocation.SolveAsWritten | blokus_problems.py:218-266 | `solve` as written returns a plan exactly when there are no targets or the first target is the starting point, and that plan is empty; on every other input it stops with the failed assertion of `next_target` or an empty fringe, and an empty fringe means some target's single-cell Cover sub-problem has no goal reachable from the fresh board |
| ClosestLocation.GreedyStep | blokus_problems.py:256-264 | appending a closest remaining target to a greedy order keeps it greedy |
| ClosestLocation.BookkeepingStep | blokus_problems.py:262-263 | one round moves exactly the picked target from the remaining set to the acquired set and appends it to the covering order |
| ClosestLocation.CoverNext | blokus_problems.py:259-261 | one sub-search started on the current board returns a plan that extends the replay from the fresh board and ends on a board covering the target, and fails only when no plan from the current board covers the target |
| ClosestLocation.SolveRound | blokus_problems.py:258-264 | one loop round keeps the loop state (greedy order, replay from the fresh board, coverage) and strictly shrinks the remaining set; a round fails only when a closest remaining target cannot be covered from the current board |
| ClosestLocation.Solve | blokus_problems.py:218-266 | corrected `solve`: the empty plan for no targets or a first target at the start, kept from the source's early exit, so that plan covers no target, not even the start cell, even when further targets remain (targets [(0, 0), (3, 3)] with start (0, 0)); otherwise the plan replays from the fresh board, every target is picked exactly once in greedy nearest-first order, and, when moves only add tiles, every target is covered at the end; it fails only when some target cannot be covered from a board that a plan from the fresh board reaches |
| ClosestLocation.AllCovered | blokus_problems.py:258-266 | once every target has been picked, covering the picked targets means covering all targets |

## Left out

- `board.py` is not part of this model. Legal-move enumeration, `do_move` and piece geometry are the function fields of `Board.Rules`. Lemmas that need "moves only add tiles" (`Board.OnlyAdds`) take it as a hypothesis.
- Boards are one-player: only player 0's flags and moves appear, as in all three problems.
- `util.Queue`, `util.PriorityQueue` and `util.manhattanDistance` are not part of this model. The FIFO queue is a `seq`. The priority queue is a `seq` with extract-min, where the choice among equal priorities is left open. Manhattan distance is |dr| + |dc|.
- An empty fringe: the source raises when it pops from an empty queue, while both searches here return `Exhausted`. They take a ghost finite `universe` closed under successors, which plays the part of a termination measure.
- `Board.At` is total: a cell outside the grid reads as empty. numpy's negative-index wrap-around and out-of-range errors are not modelled.
- The `expanded` counter: inside the searches it is a returned count of successor calls. `BlokusProblems.GetSuccessors` models the increment on the problem record itself.
- `blokus_corners_heuristic` is not modelled. It uses float division and infinity, and the outer function only defines a nested function and returns `None`.
- Unimplemented stubs that only call `raiseNotDefined` are not modelled: `depth_first_search`, `a_star_search`, `blokus_cover_heuristic` and `MiniContestSearch`. `Search.SearchBy` returns `None` for `dfs` and `astar`.
- Search.UniformCostSearch: proves that each pop is least among the queued nodes and that popped costs never decrease, not that the returned plan is cheapest. Marking states visited when they are generated means a cheaper path found later is never queued, so the source does not in general return an optimal plan.
- Constructors only initialise records (`BlokusProblems.NewProblem`, `Board.NewBoard`); list copying is not modelled.
- Default arguments are not modelled: `starting_point=(0, 0)`, the Cover default `targets=[(0, 0)]` and the `ClosestLocationSearch` default `targets=(0, 0)` become explicit parameters of every constructor. The last is a tuple, so calling `targets.copy()` on it at blokus_problems.py:207 would raise `AttributeError`; the model, whose targets are always a sequence, has no such failure.
- `ClosestLocationSearch` builds its own board without passing the starting point. Only the sub-problems, which do pass it, are searched. The model's fresh board therefore carries the starting point.
- `next_target` measures from every acquired point, as the code does. It does not measure only from the starting point.

## Findings

| source | as written | input that shows it | evidently intended | confidence | as-written member | corrected member |
|---|---|---|---|---|---|---|
| blokus_problems.py:258-264, 270-271 | after the last target leaves `targets_remaining`, the loop still calls `next_target` with an empty set before the `while` test, so `assert len(targets_remaining) > 0` fails | any target list whose first target differs from the starting point, e.g. targets [(3,3)] with start (0,0), once the sub-search for (3,3) returns a plan | pick the next target only while targets remain, and return the accumulated plan | high, not executed | ClosestLocation.SolveAsWritten | ClosestLocation.Solve |
| blokus_problems.py:238, 259-261 | every sub-problem is built from a fresh board, and the copied `current_state` is never advanced or used, so each sub-plan starts from the empty board and the concatenated plan is not a plan from the start | 3x3 board, start (0,0), one domino, targets [(0,1),(0,0)]: each sub-search can only return [domino], and [domino, domino] cannot be replayed | search each target from the board the previous sub-plan reached | high, not executed | ClosestLocation.StaleStartCounterexample | ClosestLocation.Solve |

=== FILE: blokus_problems.dfy ===
/*
 * The three one-player Blokus search problems: Fill (play every piece),
 * Corners (occupy the three corners away from the origin) and Cover (occupy
 * every target cell). They share the successor function of the board and
 * differ in the goal test and in the step cost.
 */
module BlokusProblems {
  import opened Board
  import Search

  /** Which of the three problems, with the target cells of a Cover problem. */
  datatype Kind = Fill | Corners | Cover(targets: seq<Cell>)

  /** A problem instance: its kind, its start board and the number of calls
      of its successor function so far. */
  datatype BlokusProblem = BlokusProblem(kind: Kind, board: BoardState, expanded: nat)

  type Step = Search.Triple<BoardState, Move>

  /** A fresh problem on a fresh board; nothing has been expanded yet. */
  function NewProblem(kind: Kind, w: int, h: int, pieceList: seq<Piece>, start: Cell): (p: BlokusProblem)
    ensures p.kind == kind && p.expanded == 0
    ensures p.board.w == w && p.board.h == h && p.board.start == start
    ensures forall cell :: At(p.board, cell) == EMPTY_TILE
  {
    BlokusProblem(kind, NewBoard(w, h, pieceList, start), 0)
  }

  // ---------------------------------------------------------------------
  // Goal tests
  // ---------------------------------------------------------------------

  /** Python's `any` over the remaining-piece flags. */
  function AnyLeft(flags: seq<bool>): (r: bool)
    ensures r <==> exists i :: 0 <= i < |flags| && flags[i]
  {
    if flags == [] then false
    else if flags[0] then true
    else
      assert forall i :: 1 <= i < |flags| ==> flags[i] == flags[1..][i - 1];
      AnyLeft(flags[1..])
  }

  /** The number of pieces still unplayed. */
  function CountLeft(flags: seq<bool>): nat
  {
    if flags == [] then 0 else (if flags[0] then 1 else 0) + CountLeft(flags[1..])
  }

  /** Fill: player 0 has no piece left. */
  function FillGoal(b: BoardState): (r: bool)
    ensures r <==> forall i :: 0 <= i < |b.remaining| ==> !b.remaining[i]
  {
    !AnyLeft(b.remaining)
  }

  /** Fill is reached exactly when the count of unplayed pieces is zero. */
  lemma {:induction false} FillGoalIffNoneLeft(b: BoardState)
    ensures FillGoal(b) <==> CountLeft(b.remaining) == 0
  {
    NoneLeftCount(b.remaining);
  }

  lemma {:induction false} NoneLeftCount(flags: seq<bool>)
    ensures AnyLeft(flags) <==> CountLeft(flags) > 0
  {
    if flags != [] {
      NoneLeftCount(flags[1..]);
    }
  }

  /** The three cells Corners inspects: top-right, bottom-left and
      bottom-right, as (row, column). */
  function CornerCells(b: BoardState): (cells: seq<Cell>)
    ensures |cells| == 3
  {
    [(0, b.w - 1), (b.h - 1, 0), (b.h - 1, b.w - 1)]
  }

  /** Corners: the three corners away from the origin are occupied. */
  function CornersGoal(b: BoardState): (r: bool)
    ensures r <==> forall cell :: cell in CornerCells(b) ==> At(b, cell) != EMPTY_TILE
  {
    var right := b.w - 1;
    var top := b.h - 1;
    At(b, (0, right)) != EMPTY_TILE && At(b, (top, 0)) != EMPTY_TILE && At(b, (top, right)) != EMPTY_TILE
  }

  /** Corners holds exactly when every corner cell is occupied, and on a board
      at least two wide and two high the origin is not one of them, so its
      contents never matter. */
  lemma CornersGoalCells(b: BoardState, v: int)
    ensures CornersGoal(b) <==> forall i :: 0 <= i < 3 ==> At(b, CornerCells(b)[i]) != EMPTY_TILE
    ensures b.w >= 2 && b.h >= 2 ==> (0, 0) !in CornerCells(b)
    ensures b.w >= 2 && b.h >= 2 ==> CornersGoal(b.(grid := b.grid[(0, 0) := v])) == CornersGoal(b)
  {
    var cs := CornerCells(b);
    if CornersGoal(b) {
      forall i | 0 <= i < 3 ensures At(b, cs[i]) != EMPTY_TILE {
      }
    } else {
      assert At(b, cs[0]) == EMPTY_TILE || At(b, cs[1]) == EMPTY_TILE || At(b, cs[2]) == EMPTY_TILE;
    }
    if b.w >= 2 && b.h >= 2 {
      var b' := b.(grid := b.grid[(0, 0) := v]);
      forall i | 0 <= i < 3 ensures At(b', cs[i]) == At(b, cs[i]) {
        assert cs[i] != (0, 0);
      }
      assert CornerCells(b') == cs;
    }
  }

  /** Cover: scan the targets in order and fail at the first empty one. */
  function Covers(b: BoardState, targets: seq<Cell>): (r: bool)
    ensures r <==> forall i :: 0 <= i < |targets| ==> At(b, targets[i]) != EMPTY_TILE
  {
    if targets == [] then true
    else if At(b, targets[0]) == EMPTY_TILE then false
    else
      assert forall i :: 1 <= i < |targets| ==> targets[i] == targets[1..][i - 1];
      Covers(b, targets[1..])
  }

  /** The goal test of each problem. */
  function IsGoal(kind: Kind, b: BoardState): (r: bool)
    ensures kind.Fill? ==> (r <==> forall i :: 0 <= i < |b.remaining| ==> !b.remaining[i])
    ensures kind.Corners? ==> (r <==> forall cell :: cell in CornerCells(b) ==> At(b, cell) != EMPTY_TILE)
    ensures kind.Cover? ==> (r <==> forall cell :: cell in kind.targets ==> At(b, cell) != EMPTY_TILE)
  {
    match kind
    case Fill => FillGoal(b)
    case Corners => CornersGoal(b)
    case Cover(targets) => Covers(b, targets)
  }

  /** Moves only add tiles, so a Corners or Cover goal, once reached, stays
      reached whatever move follows. */
  lemma GoalStaysReached(rules: Rules, kind: Kind, b: BoardState, m: Move)
    requires OnlyAdds(rules)
    requires kind.Corners? || kind.Cover?
    requires IsGoal(kind, b)
    requires rules.doMove(b, m).w == b.w && rules.doMove(b, m).h == b.h
    ensures IsGoal(kind, rules.doMove(b, m))
  {
    var b' := rules.doMove(b, m);
    match kind
    case Corners =>
      assert At(b', (0, b.w - 1)) != EMPTY_TILE;
      assert At(b', (b.h - 1, 0)) != EMPTY_TILE;
      assert At(b', (b.h - 1, b.w - 1)) != EMPTY_TILE;
    case Cover(targets) =>
      forall i | 0 <= i < |targets| ensures At(b', targets[i]) != EMPTY_TILE {
        assert At(b, targets[i]) != EMPTY_TILE;
      }
  }

  // ---------------------------------------------------------------------
  // Successors and costs
  // ---------------------------------------------------------------------

  /** The step cost of a move: 1 for Fill, the piece's tile count otherwise. */
  function StepCost(kind: Kind, m: Move): nat
  {
    if kind.Fill? then 1 else m.piece.numTiles
  }

  /** One successor per legal move of player 0: the board after the move, the
      move, and the step cost of the move. */
  function Successors(kind: Kind, rules: Rules, b: BoardState): seq<Step>
  {
    var moves := rules.legalMoves(b);
    seq(|moves|, i requires 0 <= i < |moves| => Search.Triple(rules.doMove(b, moves[i]), moves[i], StepCost(kind, moves[i])))
  }

  /** `get_successors`: the successor list, and the problem with its
      expansion counter advanced by exactly one and nothing else changed. */
  function GetSuccessors(prob: BlokusProblem, rules: Rules, b: BoardState): (r: (BlokusProblem, seq<Step>))
    ensures r.0.expanded == prob.expanded + 1
    ensures r.0.kind == prob.kind && r.0.board == prob.board
    ensures |r.1| == |rules.legalMoves(b)|
    ensures forall i :: 0 <= i < |r.1| ==>
              var m := rules.legalMoves(b)[i];
              r.1[i].state == rules.doMove(b, m) && r.1[i].action == m
              && r.1[i].cost == (if prob.kind.Fill? then 1 else m.piece.numTiles)
  {
    (prob.(expanded := prob.expanded + 1), Successors(prob.kind, rules, b))
  }

  /** Reference cost of a plan: the step costs summed from the first move on. */
  function PlanCost(kind: Kind, actions: seq<Move>): int
  {
    if actions == [] then 0 else StepCost(kind, actions[0]) + PlanCost(kind, actions[1..])
  }

  lemma {:induction false} PlanCostSnoc(kind: Kind, actions: seq<Move>, m: Move)
    ensures PlanCost(kind, actions + [m]) == PlanCost(kind, actions) + StepCost(kind, m)
    decreases |actions|
  {
    if actions != [] {
      assert (actions + [m])[1..] == actions[1..] + [m];
      PlanCostSnoc(kind, actions[1..], m);
    }
  }

  /** For Fill every step costs 1, so a plan costs its length. */
  lemma {:induction false} FillPlanCost(actions: seq<Move>)
    ensures PlanCost(Fill, actions) == |actions|
    decreases |actions|
  {
    if actions != [] {
      FillPlanCost(actions[1..]);
    }
  }

  /** `get_cost_of_actions`: the number of actions for Fill, the sum of the
      pieces' tile counts, accumulated left to right, for Corners and Cover. */
  method GetCostOfActions(kind: Kind, actions: seq<Move>) returns (cost: int)
    ensures cost == PlanCost(kind, actions)
    ensures cost >= 0
  {
    if kind.Fill? {
      FillPlanCost(actions);
      return |actions|;
    }
    cost := 0;
    var i := 0;
    while i < |actions|
      invariant 0 <= i <= |actions|
      invariant cost == PlanCost(kind, actions[..i])
      invariant cost >= 0
    {
      PlanCostSnoc(kind, actions[..i], actions[i]);
      assert actions[..i + 1] == actions[..i] + [actions[i]];
      cost := cost + actions[i].piece.numTiles;
      i := i + 1;
    }
    assert actions[..i] == actions;
  }

  // ---------------------------------------------------------------------
  // The problems as search problems
  // ---------------------------------------------------------------------

  /** A Blokus problem seen through the search-problem interface. */
  function SearchProblemOf(prob: BlokusProblem, rules: Rules): Search.Problem<BoardState, Move>
  {
    Search.Problem(prob.board, b => IsGoal(prob.kind, b), b => Successors(prob.kind, rules, b))
  }

  /** The step costs the successor function emits add up, along any replayed
      plan, to what `get_cost_of_actions` computes for that plan. */
  lemma {:induction false} CostMatchesSteps(prob: BlokusProblem, rules: Rules, s: BoardState, plan: seq<Move>, t: BoardState, c: int)
    requires Search.ReachesAtCost(SearchProblemOf(prob, rules), s, plan, t, c)
    ensures c == PlanCost(prob.kind, plan)
    decreases |plan|
  {
    var p := SearchProblemOf(prob, rules);
    if plan != [] {
      var e :| e in p.successors(s) && e.action == plan[0] && Search.ReachesAtCost(p, e.state, plan[1..], t, c - e.cost);
      var moves := rules.legalMoves(s);
      var i :| 0 <= i < |moves| && p.successors(s)[i] == e;
      assert e.cost == StepCost(prob.kind, plan[0]);
      CostMatchesSteps(prob, rules, e.state, plan[1..], t, c - e.cost);
    }
  }

  /** Every successor the problem emits is a legal move's result, so a
      universe closed under legal moves is closed under successors, and no
      step cost is negative. */
  lemma SearchProblemClosed(prob: BlokusProblem, rules: Rules, universe: set<BoardState>)
    requires RulesClosed(rules, universe)
    ensures Search.Closed(SearchProblemOf(prob, rules), universe)
    ensures Search.NonNegativeCosts(SearchProblemOf(prob, rules), universe)
  {
    var p := SearchProblemOf(prob, rules);
    forall b, e | b in universe && e in p.successors(b) ensures e.state in universe && e.cost >= 0 {
      var moves := rules.legalMoves(b);
      var i :| 0 <= i < |moves| && p.successors(b)[i] == e;
      assert moves[i] in moves;
    }
  }

  /** The successor lists of two Cover problems agree whatever their targets:
      targets only enter the goal test. */
  lemma CoverSuccessorsAgree(rules: Rules, targets1: seq<Cell>, targets2: seq<Cell>, b: BoardState)
    ensures Successors(Cover(targets1), rules, b) == Successors(Cover(targets2), rules, b)
  {
    var s1 := Successors(Cover(targets1), rules, b);
    var s2 := Successors(Cover(targets2), rules, b);
    assert |s1| == |s2|;
    forall i | 0 <= i < |s1| ensures s1[i] == s2[i] {
      var m := rules.legalMoves(b)[i];
      assert StepCost(Cover(targets1), m) == m.piece.numTiles == StepCost(Cover(targets2), m);
    }
  }

  /** When moves only add tiles, a cell occupied at the start of a replayed
      plan is still occupied at its end. */
  lemma {:induction false} StaysCovered(prob: BlokusProblem, rules: Rules, s: BoardState, plan: seq<Move>, t: BoardState, cell: Cell)
    requires OnlyAdds(rules)
    requires Search.Reaches(SearchProblemOf(prob, rules), s, plan, t)
    requires At(s, cell) != EMPTY_TILE
    ensures At(t, cell) != EMPTY_TILE
    decreases |plan|
  {
    var p := SearchProblemOf(prob, rules);
    if plan != [] {
      var e :| e in p.successors(s) && e.action == plan[0] && Search.Reaches(p, e.state, plan[1..], t);
      var moves := rules.legalMoves(s);
      var i :| 0 <= i < |moves| && p.successors(s)[i] == e;
      assert e.state == rules.doMove(s, moves[i]);
      StaysCovered(prob, rules, e.state, plan[1..], t, cell);
    }
  }
}

=== FILE: board.dfy ===
/*
 * The part of a one-player Blokus board that the search problems look at:
 * the cell grid, the player's remaining-piece flags and the piece list. Move
 * generation and move application are not modelled here; they enter as the
 * two functions of `Rules`.
 */
module Board {

  /** The value of an unoccupied cell. */
  const EMPTY_TILE: int := -1

  /** A board position as (row, column). */
  type Cell = (int, int)

  /** A game piece; the search problems only ask for its number of tiles. */
  datatype Piece = Piece(id: nat, numTiles: nat)

  /** A move places `piece`, in one of its orientations, at a board position. */
  datatype Move = Move(piece: Piece, orientation: nat, position: Cell)

  /** A one-player board: width and height, the owner of every occupied cell
      (a cell missing from `grid` is empty), which of the player's pieces are
      still unplayed, the piece list and the starting point. */
  datatype BoardState = BoardState(w: int, h: int, grid: map<Cell, int>, remaining: seq<bool>,
                                   pieceList: seq<Piece>, start: Cell)

  /** The tile at `cell`, EMPTY_TILE where nothing was placed. */
  function At(b: BoardState, cell: Cell): int
  {
    if cell in b.grid then b.grid[cell] else EMPTY_TILE
  }

  /** A fresh board: every cell empty and every piece of the list unplayed. */
  function NewBoard(w: int, h: int, pieceList: seq<Piece>, start: Cell): (b: BoardState)
    ensures b.w == w && b.h == h && b.pieceList == pieceList && b.start == start
    ensures forall cell :: At(b, cell) == EMPTY_TILE
    ensures |b.remaining| == |pieceList| && forall i :: 0 <= i < |b.remaining| ==> b.remaining[i]
  {
    BoardState(w, h, map[], seq(|pieceList|, _ => true), pieceList, start)
  }

  /** The legal moves of player 0 and the board a move leads to. */
  datatype Rules = Rules(legalMoves: BoardState -> seq<Move>, doMove: (BoardState, Move) -> BoardState)

  /** Moves only add tiles: an occupied cell stays occupied. */
  ghost predicate OnlyAdds(rules: Rules)
  {
    forall b, m, cell :: At(b, cell) != EMPTY_TILE ==> At(rules.doMove(b, m), cell) != EMPTY_TILE
  }

  /** Every legal move from a board of `universe` leads back into `universe`. */
  ghost predicate RulesClosed(rules: Rules, universe: set<BoardState>)
  {
    forall b, m :: b in universe && m in rules.legalMoves(b) ==> rules.doMove(b, m) in universe
  }
}

=== FILE: closest.dfy ===
/*
 * Greedy covering of target cells: repeatedly pick the remaining target
 * closest (in Manhattan distance) to any point acquired so far, and plan with
 * uniform-cost search a sequence of moves that covers it.
 */
module ClosestLocation {
  import opened Board
  import Search
  import BlokusProblems

  /** Why a run stops without a plan: a failed `assert`, or a uniform-cost
      search whose fringe ran empty. */
  datatype Error = AssertionFailed | EmptyFringe

  datatype Outcome<T> = Success(value: T) | Failure(error: Error)

  /** The inputs of a ClosestLocationSearch: board size, piece list,
      starting point and the target cells in the order given. */
  datatype ClosestLocationSearch = ClosestLocationSearch(w: int, h: int, pieceList: seq<Piece>, start: Cell, targets: seq<Cell>)

  function Abs(x: int): nat
  {
    if x < 0 then -x else x
  }

  /** Manhattan distance between two cells: zero exactly on equal cells, and
      at least the gap in each coordinate. */
  function Manhattan(a: Cell, b: Cell): (d: nat)
    ensures d == 0 <==> a == b
    ensures d >= a.0 - b.0 && d >= b.0 - a.0 && d >= a.1 - b.1 && d >= b.1 - a.1
  {
    Abs(a.0 - b.0) + Abs(a.1 - b.1)
  }

  function SetOf<T>(s: seq<T>): set<T>
  {
    set x | x in s
  }

  /** `target` is a remaining cell whose distance to some acquired point is
      no larger than the distance of any remaining cell to any acquired
      point. */
  ghost predicate IsClosest(acquired: set<Cell>, remaining: set<Cell>, target: Cell)
  {
    && target in remaining
    && exists q :: q in acquired && forall t, q' :: t in remaining && q' in acquired ==> Manhattan(target, q) <= Manhattan(t, q')
  }

  /** `next_target`: both sets must be non-empty (otherwise the `assert`
      fails); scan every (target, acquired point) pair and keep the first
      pair of strictly smaller distance, starting from an infinite distance.
      Set iteration order is left open. */
  method NextTarget(acquired: set<Cell>, remaining: set<Cell>) returns (r: Outcome<Cell>)
    ensures r.Success? <==> acquired != {} && remaining != {}
    ensures r.Failure? ==> r.error == AssertionFailed
    ensures r.Success? ==> IsClosest(acquired, remaining, r.value)
  {
    if |acquired| == 0 || |remaining| == 0 {
      return Failure(AssertionFailed);
    }
    var closest: Search.Option<nat> := Search.None;
    var curTarget :| curTarget in remaining;
    ghost var bestPoint :| bestPoint in acquired;
    var todo := remaining;
    while todo != {}
      invariant todo <= remaining
      invariant closest.None? ==> todo == remaining
      invariant curTarget in remaining && bestPoint in acquired
      invariant closest.Some? ==> closest.value == Manhattan(curTarget, bestPoint)
      invariant closest.Some? ==> forall t, q :: t in remaining - todo && q in acquired ==> closest.value <= Manhattan(t, q)
      decreases |todo|
    {
      var target :| target in todo;
      var points := acquired;
      while points != {}
        invariant points <= acquired
        invariant curTarget in remaining && bestPoint in acquired
        invariant points != acquired ==> closest.Some?
        invariant closest.None? ==> todo == remaining
        invariant closest.Some? ==> closest.value == Manhattan(curTarget, bestPoint)
        invariant closest.Some? ==> forall t, q :: t in remaining - todo && q in acquired ==> closest.value <= Manhattan(t, q)
        invariant closest.Some? ==> forall q :: q in acquired - points ==> closest.value <= Manhattan(target, q)
        decreases |points|
      {
        var point :| point in points;
        var d := Manhattan(target, point);
        if closest.None? || d < closest.value {
          curTarget, bestPoint, closest := target, point, Search.Some(d);
        }
        points := points - {point};
      }
      todo := todo - {target};
    }
    assert forall t, q :: t in remaining && q in acquired ==> Manhattan(curTarget, bestPoint) <= Manhattan(t, q);
    return Success(curTarget);
  }

  /** The board every sub-problem of `solve` is built from. */
  function FreshBoard(c: ClosestLocationSearch): BoardState
  {
    NewBoard(c.w, c.h, c.pieceList, c.start)
  }

  /** The sub-problem `solve` builds for `target`: a Cover problem for that
      one cell, always on a fresh board. */
  function SubProblemAsWritten(c: ClosestLocationSearch, target: Cell): (p: BlokusProblems.BlokusProblem)
    ensures p.kind == BlokusProblems.Cover([target])
    ensures forall cell :: At(p.board, cell) == EMPTY_TILE
  {
    BlokusProblems.NewProblem(BlokusProblems.Cover([target]), c.w, c.h, c.pieceList, c.start)
  }

  /** A concrete instance of the stale start: a 3x3 board with the start in
      the origin, one domino, and the targets (0, 1) and (0, 0). */
  function StaleStartInstance(): ClosestLocationSearch
  {
    ClosestLocationSearch(3, 3, [Piece(0, 2)], (0, 0), [(0, 1), (0, 0)])
  }

  /** The only move of the instance: the domino laid on (0, 0) and (0, 1). */
  function DominoMove(): Move
  {
    Move(Piece(0, 2), 0, (0, 0))
  }

  /** As in Blokus, the first move must cover the starting cell, and with the
      single domino played nothing else can follow. */
  function DominoRules(): Rules
  {
    Rules((b: BoardState) => if At(b, (0, 0)) == EMPTY_TILE then [DominoMove()] else [],
          (b: BoardState, m: Move) => b.(grid := b.grid[m.position := 0][(m.position.0, m.position.1 + 1) := 0]))
  }

  /** Since every sub-problem `solve` builds starts on the fresh board, each
      of them can only be solved by the plan [domino], so the backtrace is
      [domino, domino]; that plan cannot be replayed from the fresh board,
      because after the first domino no move is legal. */
  lemma StaleStartCounterexample(t: Cell, plan: seq<Move>, goal: BoardState, final: BoardState)
    ensures var c := StaleStartInstance();
            var sub := BlokusProblems.SearchProblemOf(SubProblemAsWritten(c, t), DominoRules());
            Search.Reaches(sub, FreshBoard(c), plan, goal) && sub.isGoal(goal) ==> plan == [DominoMove()]
    ensures !Search.Reaches(CoverAll(StaleStartInstance(), DominoRules()), FreshBoard(StaleStartInstance()),
                            [DominoMove(), DominoMove()], final)
  {
    var c := StaleStartInstance();
    var rules := DominoRules();
    var blank := FreshBoard(c);
    var placed := rules.doMove(blank, DominoMove());
    assert At(placed, (0, 0)) != EMPTY_TILE;
    assert rules.legalMoves(placed) == [];
    var sub := BlokusProblems.SearchProblemOf(SubProblemAsWritten(c, t), rules);
    if Search.Reaches(sub, blank, plan, goal) && sub.isGoal(goal) {
      assert At(blank, t) == EMPTY_TILE;
      assert plan != [];
      var e :| e in sub.successors(blank) && e.action == plan[0] && Search.Reaches(sub, e.state, plan[1..], goal);
      assert sub.successors(blank) == [Search.Triple(placed, DominoMove(), 2)];
      assert sub.successors(placed) == [];
      assert plan[1..] == [];
      assert plan == [DominoMove()];
    }
    var all := CoverAll(c, rules);
    assert all.successors(blank) == [Search.Triple(placed, DominoMove(), 2)];
    assert all.successors(placed) == [];
  }

  /** `solve` as written: after covering the last remaining target it calls
      `next_target` with no targets left, whose assertion fails. So the run
      returns a plan only through the two early exits, and those return the
      empty plan. */
  method SolveAsWritten(c: ClosestLocationSearch, rules: Rules, ghost universe: set<BoardState>) returns (r: Outcome<seq<Move>>)
    requires FreshBoard(c) in universe
    requires RulesClosed(rules, universe)
    ensures r.Success? <==> |c.targets| == 0 || c.targets[0] == c.start
    ensures r.Success? ==> r.value == []
    ensures r == Failure(EmptyFringe) ==>
              exists t :: t in SetOf(c.targets) &&
                Search.NoGoalReachable(BlokusProblems.SearchProblemOf(SubProblemAsWritten(c, t), rules), FreshBoard(c))
  {
    if |c.targets| == 0 {
      return Success([]);
    }
    if c.targets[0] == c.start {
      return Success([]);
    }
    var remaining := SetOf(c.targets);
    var acquired := {c.start};
    var backtrace: seq<Move> := [];
    assert c.targets[0] in remaining;
    var next := NextTarget(acquired, remaining);
    var curTarget := next.value;
    while remaining != {}
      invariant curTarget in remaining && remaining <= SetOf(c.targets)
      decreases |remaining|
    {
      var sub := SubProblemAsWritten(c, curTarget);
      BlokusProblems.SearchProblemClosed(sub, rules, universe);
      var found, _, _, _ := Search.UniformCostSearch(BlokusProblems.SearchProblemOf(sub, rules), universe);
      if found.Exhausted? {
        assert sub.board == FreshBoard(c);
        return Failure(EmptyFringe);
      }
      backtrace := backtrace + found.plan;
      acquired := acquired + {curTarget};
      remaining := remaining - {curTarget};
      next := NextTarget(acquired, remaining);
      if next.Failure? {
        return Failure(next.error);
      }
      curTarget := next.value;
    }
    assert false;
    return Success(backtrace);
  }

  /** What the corrected `solve` returns: the concatenated plan, the targets
      in the order they were covered, and the board the plan ends on. */
  datatype Solution = Solution(plan: seq<Move>, order: seq<Cell>, final: BoardState)

  /** Every target of `order` was, when picked, closest to the points
      acquired before it (the start and the earlier targets). */
  ghost predicate GreedyOrder(start: Cell, all: set<Cell>, order: seq<Cell>)
  {
    forall k :: 0 <= k < |order| ==> IsClosest({start} + SetOf(order[..k]), all - SetOf(order[..k]), order[k])
  }

  lemma GreedyStep(start: Cell, all: set<Cell>, order: seq<Cell>, x: Cell)
    requires GreedyOrder(start, all, order)
    requires IsClosest({start} + SetOf(order), all - SetOf(order), x)
    ensures GreedyOrder(start, all, order + [x])
  {
    var o := order + [x];
    forall k | 0 <= k < |o| ensures IsClosest({start} + SetOf(o[..k]), all - SetOf(o[..k]), o[k]) {
      if k < |order| {
        assert o[..k] == order[..k];
      } else {
        assert o[..k] == order;
      }
    }
  }

  lemma SetOfSnoc<T>(s: seq<T>, x: T)
    ensures SetOf(s + [x]) == SetOf(s) + {x}
  {
    assert forall y :: y in s + [x] <==> y in s || y == x;
  }

  /** The Cover problem for all targets, started on the fresh board: every
      sub-plan of the corrected `solve` replays in it. */
  function CoverAll(c: ClosestLocationSearch, rules: Rules): Search.Problem<BoardState, Move>
  {
    BlokusProblems.SearchProblemOf(BlokusProblems.BlokusProblem(BlokusProblems.Cover(c.targets), FreshBoard(c), 0), rules)
  }

  /** No plan from `b` covers `target`: the single-target Cover problem
      started on `b` has no goal reachable from its start. */
  ghost predicate Stuck(rules: Rules, b: BoardState, target: Cell)
  {
    Search.NoGoalReachable(BlokusProblems.SearchProblemOf(BlokusProblems.BlokusProblem(BlokusProblems.Cover([target]), b, 0), rules), b)
  }

  /** One round of the corrected `solve`: search from the current board for
      a plan covering `target`; on success the plan extends the replay from
      the fresh board and the target is covered at its end; it fails only
      when no plan from the current board covers the target. */
  method CoverNext(c: ClosestLocationSearch, rules: Rules, ghost universe: set<BoardState>, ghost plan: seq<Move>,
                   current: BoardState, target: Cell)
    returns (r: Outcome<(seq<Move>, BoardState)>)
    requires current in universe && RulesClosed(rules, universe)
    requires Search.Reaches(CoverAll(c, rules), FreshBoard(c), plan, current)
    ensures r.Failure? ==> r.error == EmptyFringe && Stuck(rules, current, target)
    ensures r.Success? ==> r.value.1 in universe
    ensures r.Success? ==> Search.Reaches(CoverAll(c, rules), FreshBoard(c), plan + r.value.0, r.value.1)
    ensures r.Success? ==> Search.Reaches(CoverAll(c, rules), current, r.value.0, r.value.1)
    ensures r.Success? ==> At(r.value.1, target) != EMPTY_TILE
  {
    var sub := BlokusProblems.BlokusProblem(BlokusProblems.Cover([target]), current, 0);
    var sp := BlokusProblems.SearchProblemOf(sub, rules);
    BlokusProblems.SearchProblemClosed(sub, rules, universe);
    var found, backtrack, expanded, _ := Search.UniformCostSearch(sp, universe);
    if found.Exhausted? {
      return Failure(EmptyFringe);
    }
    ghost var all := CoverAll(c, rules);
    forall b ensures sp.successors(b) == all.successors(b) {
      BlokusProblems.CoverSuccessorsAgree(rules, [target], c.targets, b);
    }
    Search.ReachesAtCostReaches(sp, current, found.plan, found.goal, backtrack[expanded].costFromRoot);
    Search.ReachesTransfer(sp, all, current, found.plan, found.goal);
    Search.ReachesAppend(all, FreshBoard(c), plan, current, found.plan, found.goal);
    assert BlokusProblems.Covers(found.goal, [target]);
    return Success((found.plan, found.goal));
  }

  /** The state of the corrected `solve` loop: the picked targets `order`
      have moved from `remaining` to `acquired`, in greedy order; `plan`
      replays from the fresh board to `current`; and, when moves only add
      tiles, every picked target is covered on `current`. */
  ghost predicate Progress(c: ClosestLocationSearch, rules: Rules, universe: set<BoardState>,
                           remaining: set<Cell>, acquired: set<Cell>, plan: seq<Move>, order: seq<Cell>, current: BoardState)
  {
    && remaining == SetOf(c.targets) - SetOf(order)
    && acquired == {c.start} + SetOf(order)
    && SetOf(order) <= SetOf(c.targets)
    && |order| + |remaining| == |SetOf(c.targets)|
    && GreedyOrder(c.start, SetOf(c.targets), order)
    && current in universe
    && Search.Reaches(CoverAll(c, rules), FreshBoard(c), plan, current)
    && (OnlyAdds(rules) ==> forall i :: 0 <= i < |order| ==> At(current, order[i]) != EMPTY_TILE)
  }

  /** Covered targets stay covered along the next sub-plan, and the new
      target is covered at its end. */
  lemma CoverageStep(c: ClosestLocationSearch, rules: Rules, order: seq<Cell>, current: BoardState,
                     sub: seq<Move>, current': BoardState, target: Cell)
    requires OnlyAdds(rules) ==> forall i :: 0 <= i < |order| ==> At(current, order[i]) != EMPTY_TILE
    requires Search.Reaches(CoverAll(c, rules), current, sub, current')
    requires At(current', target) != EMPTY_TILE
    ensures OnlyAdds(rules) ==> forall i :: 0 <= i < |order + [target]| ==> At(current', (order + [target])[i]) != EMPTY_TILE
  {
    if OnlyAdds(rules) {
      var o := order + [target];
      forall i | 0 <= i < |o| ensures At(current', o[i]) != EMPTY_TILE {
        if i < |order| {
          BlokusProblems.StaysCovered(BlokusProblems.BlokusProblem(BlokusProblems.Cover(c.targets), FreshBoard(c), 0), rules, current,
                                      sub, current', order[i]);
        }
      }
    }
  }

  /** The bookkeeping of one round: the picked target leaves `remaining`,
      joins `acquired` and is appended to `order`. */
  lemma BookkeepingStep(c: ClosestLocationSearch, remaining: set<Cell>, acquired: set<Cell>, order: seq<Cell>, target: Cell)
    requires remaining == SetOf(c.targets) - SetOf(order)
    requires acquired == {c.start} + SetOf(order)
    requires SetOf(order) <= SetOf(c.targets)
    requires |order| + |remaining| == |SetOf(c.targets)|
    requires GreedyOrder(c.start, SetOf(c.targets), order)
    requires IsClosest(acquired, remaining, target)
    ensures remaining - {target} == SetOf(c.targets) - SetOf(order + [target])
    ensures acquired + {target} == {c.start} + SetOf(order + [target])
    ensures SetOf(order + [target]) <= SetOf(c.targets)
    ensures |order + [target]| + |remaining - {target}| == |SetOf(c.targets)|
    ensures GreedyOrder(c.start, SetOf(c.targets), order + [target])
  {
    GreedyStep(c.start, SetOf(c.targets), order, target);
    SetOfSnoc(order, target);
  }

  /** One round of the corrected `solve` loop: pick the closest remaining
      target, cover it, and move it from `remaining` to `acquired`. A round
      fails only when a closest remaining target cannot be covered from the
      current board. */
  method SolveRound(c: ClosestLocationSearch, rules: Rules, ghost universe: set<BoardState>,
                    remaining: set<Cell>, acquired: set<Cell>, plan: seq<Move>, order: seq<Cell>, current: BoardState)
    returns (ok: bool, remaining': set<Cell>, acquired': set<Cell>, plan': seq<Move>, order': seq<Cell>, current': BoardState)
    requires RulesClosed(rules, universe)
    requires remaining != {}
    requires Progress(c, rules, universe, remaining, acquired, plan, order, current)
    ensures ok ==> Progress(c, rules, universe, remaining', acquired', plan', order', current')
    ensures ok ==> |remaining'| < |remaining|
    ensures !ok ==> exists t :: IsClosest(acquired, remaining, t) && Stuck(rules, current, t)
  {
    var next := NextTarget(acquired, remaining);
    var target := next.value;
    var step := CoverNext(c, rules, universe, plan, current, target);
    if step.Failure? {
      assert IsClosest(acquired, remaining, target) && Stuck(rules, current, target);
      return false, remaining, acquired, plan, order, current;
    }
    CoverageStep(c, rules, order, current, step.value.0, step.value.1, target);
    BookkeepingStep(c, remaining, acquired, order, target);
    ok := true;
    plan', current' := plan + step.value.0, step.value.1;
    order' := order + [target];
    acquired' := acquired + {target};
    remaining' := remaining - {target};
  }

  /** `solve` with the two defects repaired: `next_target` is only asked while
      targets remain, and each sub-search starts from the board the previous
      one reached. It fails only when, on a board some plan reaches from the
      fresh board, a target cannot be covered. The source's early exit for a
      first target at the start is kept: its empty plan covers no target, even
      when more targets follow, which is why the coverage clauses exclude it. */
  method Solve(c: ClosestLocationSearch, rules: Rules, ghost universe: set<BoardState>) returns (r: Outcome<Solution>)
    requires FreshBoard(c) in universe
    requires RulesClosed(rules, universe)
    ensures r.Failure? ==> r.error == EmptyFringe
    ensures r.Failure? ==>
              exists plan, b, t :: t in SetOf(c.targets) && Search.Reaches(CoverAll(c, rules), FreshBoard(c), plan, b) && Stuck(rules, b, t)
    ensures |c.targets| == 0 || c.targets[0] == c.start ==> r == Success(Solution([], [], FreshBoard(c)))
    ensures r.Success? ==> Search.Reaches(CoverAll(c, rules), FreshBoard(c), r.value.plan, r.value.final)
    ensures r.Success? && |c.targets| > 0 && c.targets[0] != c.start ==>
              && SetOf(r.value.order) == SetOf(c.targets)
              && |r.value.order| == |SetOf(c.targets)|
              && GreedyOrder(c.start, SetOf(c.targets), r.value.order)
    ensures r.Success? && OnlyAdds(rules) ==> forall i :: 0 <= i < |r.value.order| ==> At(r.value.final, r.value.order[i]) != EMPTY_TILE
    ensures r.Success? && OnlyAdds(rules) && |c.targets| > 0 && c.targets[0] != c.start ==>
              forall i :: 0 <= i < |c.targets| ==> At(r.value.final, c.targets[i]) != EMPTY_TILE
  {
    var current := FreshBoard(c);
    if |c.targets| == 0 || c.targets[0] == c.start {
      return Success(Solution([], [], current));
    }
    var remaining := SetOf(c.targets);
    var acquired := {c.start};
    var plan: seq<Move> := [];
    var order: seq<Cell> := [];
    while remaining != {}
      invariant Progress(c, rules, universe, remaining, acquired, plan, order, current)
      decreases |remaining|
    {
      ghost var remaining0, acquired0, plan0, current0 := remaining, acquired, plan, current;
      var ok;
      ok, remaining, acquired, plan, order, current := SolveRound(c, rules, universe, remaining, acquired, plan, order, current);
      if !ok {
        ghost var t :| IsClosest(acquired0, remaining0, t) && Stuck(rules, current0, t);
        assert t in SetOf(c.targets) && Search.Reaches(CoverAll(c, rules), FreshBoard(c), plan0, current0);
        return Failure(EmptyFringe);
      }
    }
    AllCovered(c, rules, order, current);
    return Success(Solution(plan, order, current));
  }

  /** Once every target has been picked, covering the picked targets is
      covering all targets. */
  lemma AllCovered(c: ClosestLocationSearch, rules: Rules, order: seq<Cell>, current: BoardState)
    requires SetOf(order) == SetOf(c.targets)
    requires OnlyAdds(rules) ==> forall i :: 0 <= i < |order| ==> At(current, order[i]) != EMPTY_TILE
    ensures OnlyAdds(rules) ==> forall i :: 0 <= i < |c.targets| ==> At(current, c.targets[i]) != EMPTY_TILE
  {
    if OnlyAdds(rules) {
      forall i | 0 <= i < |c.targets| ensures At(current, c.targets[i]) != EMPTY_TILE {
        assert c.targets[i] in SetOf(order);
        var k :| 0 <= k < |order| && order[k] == c.targets[i];
      }
    }
  }
}

=== FILE: search.dfy ===
/*
 * Generic graph search over an abstract problem: breadth-first search with a
 * FIFO fringe and uniform-cost search with an extract-min fringe, both
 * recording a backtrack table of (node, parent index) entries from which the
 * plan is rebuilt.
 */
module Search {

  datatype Option<T> = None | Some(value: T)

  /** One element of a successor list: the successor state, the action that
      reaches it and the incremental cost of that action. */
  datatype Triple<S, A> = Triple(state: S, action: A, cost: int)

  /** The search-problem interface: start state, goal test and successor
      function. The cost of a plan is the sum of the step costs along it. */
  datatype Problem<!S, A> = Problem(start: S, isGoal: S -> bool, successors: S -> seq<Triple<S, A>>)

  /** What a search returns: the plan together with the goal state it reaches,
      or the explicit report that the fringe ran empty. */
  datatype SearchResult<S, A> = Found(plan: seq<A>, goal: S) | Exhausted

  // ---------------------------------------------------------------------
  // Paths through the successor relation
  // ---------------------------------------------------------------------

  /** Replaying `plan` from `s` through the successor relation can end in `t`. */
  ghost predicate Reaches<S, A>(p: Problem<S, A>, s: S, plan: seq<A>, t: S)
    decreases |plan|
  {
    if plan == [] then s == t
    else exists e :: e in p.successors(s) && e.action == plan[0] && Reaches(p, e.state, plan[1..], t)
  }

  /** As `Reaches`, and the step costs along the replay sum to `c`. */
  ghost predicate ReachesAtCost<S, A>(p: Problem<S, A>, s: S, plan: seq<A>, t: S, c: int)
    decreases |plan|
  {
    if plan == [] then s == t && c == 0
    else exists e :: e in p.successors(s) && e.action == plan[0] && ReachesAtCost(p, e.state, plan[1..], t, c - e.cost)
  }

  /** Every successor of a state of `universe` is again in `universe`. */
  ghost predicate Closed<S, A>(p: Problem<S, A>, universe: set<S>)
  {
    forall s, e :: s in universe && e in p.successors(s) ==> e.state in universe
  }

  /** Every step cost out of a state of `universe` is non-negative. */
  ghost predicate NonNegativeCosts<S, A>(p: Problem<S, A>, universe: set<S>)
  {
    forall s, e :: s in universe && e in p.successors(s) ==> e.cost >= 0
  }

  /** No plan replayed from `s` ends in a goal state. */
  ghost predicate NoGoalReachable<S(!new), A(!new)>(p: Problem<S, A>, s: S)
  {
    forall plan, t :: Reaches(p, s, plan, t) ==> !p.isGoal(t)
  }

  function Reverse<T>(xs: seq<T>): (r: seq<T>)
    ensures |r| == |xs|
    ensures forall i :: 0 <= i < |xs| ==> r[i] == xs[|xs| - 1 - i]
  {
    if xs == [] then [] else [xs[|xs| - 1]] + Reverse(xs[..|xs| - 1])
  }

  lemma ReverseSnoc<T>(xs: seq<T>, x: T)
    ensures Reverse(xs + [x]) == [x] + Reverse(xs)
  {
    assert (xs + [x])[..|xs|] == xs;
  }

  /** One step of the successor relation in front of a replay is a replay. */
  lemma ReachesCons<S, A>(p: Problem<S, A>, s: S, e: Triple<S, A>, rest: seq<A>, t: S)
    requires e in p.successors(s)
    requires Reaches(p, e.state, rest, t)
    ensures Reaches(p, s, [e.action] + rest, t)
  {
    assert ([e.action] + rest)[1..] == rest;
  }

  lemma ReachesAtCostCons<S, A>(p: Problem<S, A>, s: S, e: Triple<S, A>, rest: seq<A>, t: S, c: int)
    requires e in p.successors(s)
    requires ReachesAtCost(p, e.state, rest, t, c)
    ensures ReachesAtCost(p, s, [e.action] + rest, t, c + e.cost)
  {
    assert ([e.action] + rest)[1..] == rest;
  }

  /** A costed replay is in particular a replay. */
  lemma {:induction false} ReachesAtCostReaches<S, A>(p: Problem<S, A>, s: S, plan: seq<A>, t: S, c: int)
    requires ReachesAtCost(p, s, plan, t, c)
    ensures Reaches(p, s, plan, t)
    decreases |plan|
  {
    if plan != [] {
      var e :| e in p.successors(s) && e.action == plan[0] && ReachesAtCost(p, e.state, plan[1..], t, c - e.cost);
      ReachesAtCostReaches(p, e.state, plan[1..], t, c - e.cost);
    }
  }

  /** Replays compose: reaching `t` and then `u` is reaching `u` by the
      concatenated plan. */
  lemma {:induction false} ReachesAppend<S, A>(p: Problem<S, A>, s: S, plan1: seq<A>, t: S, plan2: seq<A>, u: S)
    requires Reaches(p, s, plan1, t)
    requires Reaches(p, t, plan2, u)
    ensures Reaches(p, s, plan1 + plan2, u)
    decreases |plan1|
  {
    if plan1 == [] {
      assert plan1 + plan2 == plan2;
    } else {
      var e :| e in p.successors(s) && e.action == plan1[0] && Reaches(p, e.state, plan1[1..], t);
      ReachesAppend(p, e.state, plan1[1..], t, plan2, u);
      assert (plan1 + plan2)[1..] == plan1[1..] + plan2;
    }
  }

  /** The last step of a non-empty replay: the plan without its last action
      reaches some `u`, and a successor of `u` under that action is `t`. */
  lemma {:induction false} ReachesLast<S, A>(p: Problem<S, A>, s: S, plan: seq<A>, t: S) returns (u: S, e: Triple<S, A>)
    requires Reaches(p, s, plan, t) && plan != []
    ensures Reaches(p, s, plan[..|plan| - 1], u)
    ensures e in p.successors(u) && e.action == plan[|plan| - 1] && e.state == t
    decreases |plan|
  {
    var first :| first in p.successors(s) && first.action == plan[0] && Reaches(p, first.state, plan[1..], t);
    if |plan| == 1 {
      u, e := s, first;
      assert plan[..0] == [];
    } else {
      u, e := ReachesLast(p, first.state, plan[1..], t);
      assert plan[1..][..|plan| - 2] == plan[..|plan| - 1][1..];
      assert plan[..|plan| - 1][0] == plan[0];
    }
  }

  /** Replays depend on the successor function only: two problems with the
      same successors have the same replays. */
  lemma {:induction false} ReachesTransfer<S, A>(p: Problem<S, A>, q: Problem<S, A>, s: S, plan: seq<A>, t: S)
    requires forall x :: p.successors(x) == q.successors(x)
    requires Reaches(p, s, plan, t)
    ensures Reaches(q, s, plan, t)
    decreases |plan|
  {
    if plan != [] {
      var e :| e in p.successors(s) && e.action == plan[0] && Reaches(p, e.state, plan[1..], t);
      ReachesTransfer(p, q, e.state, plan[1..], t);
      assert e in q.successors(s);
    }
  }

  /** A replay that starts inside a successor-closed set stays inside it. */
  lemma {:induction false} ReachesStaysInside<S, A>(p: Problem<S, A>, inside: set<S>, s: S, plan: seq<A>, t: S)
    requires s in inside
    requires forall x, e :: x in inside && e in p.successors(x) ==> e.state in inside
    requires Reaches(p, s, plan, t)
    ensures t in inside
    decreases |plan|
  {
    if plan != [] {
      var e :| e in p.successors(s) && e.action == plan[0] && Reaches(p, e.state, plan[1..], t);
      ReachesStaysInside(p, inside, e.state, plan[1..], t);
    }
  }

  /** With non-negative step costs every costed replay has a non-negative cost. */
  lemma {:induction false} CostNonNegative<S, A>(p: Problem<S, A>, universe: set<S>, s: S, plan: seq<A>, t: S, c: int)
    requires s in universe
    requires Closed(p, universe)
    requires NonNegativeCosts(p, universe)
    requires ReachesAtCost(p, s, plan, t, c)
    ensures c >= 0
    decreases |plan|
  {
    if plan != [] {
      var e :| e in p.successors(s) && e.action == plan[0] && ReachesAtCost(p, e.state, plan[1..], t, c - e.cost);
      CostNonNegative(p, universe, e.state, plan[1..], t, c - e.cost);
    }
  }

  lemma SubsetCardinality<T>(a: set<T>, b: set<T>)
    requires a <= b
    ensures |a| <= |b|
  {
    if a != {} {
      var x :| x in a;
      SubsetCardinality(a - {x}, b - {x});
    }
  }

  // ---------------------------------------------------------------------
  // Breadth-first search
  // ---------------------------------------------------------------------

  /** A fringe element: the state, the action that produced it (none for the
      start) and a cost (the step cost in BFS, the cost from the root in UCS). */
  datatype Node<S, A> = Node(state: S, action: Option<A>, cost: int)

  /** A BFS backtrack entry: a pushed node and the index of the entry it was
      expanded from. */
  datatype BfsEntry<S, A> = BfsEntry(node: Node<S, A>, parent: nat)

  function BfsStart<S, A>(p: Problem<S, A>): BfsEntry<S, A>
  {
    BfsEntry(Node(p.start, None, 0), 0)
  }

  ghost function States<S, A>(backtrack: seq<BfsEntry<S, A>>): set<S>
  {
    set i | 0 <= i < |backtrack| :: backtrack[i].node.state
  }

  ghost predicate DistinctStates<S, A>(backtrack: seq<BfsEntry<S, A>>)
  {
    forall i, j :: 0 <= i < j < |backtrack| ==> backtrack[i].node.state != backtrack[j].node.state
  }

  /** `child` is one of the successor triples of `parentState`, as pushed by BFS. */
  ghost predicate Linked<S, A>(p: Problem<S, A>, child: Node<S, A>, parentState: S)
  {
    child.action.Some? && Triple(child.state, child.action.value, child.cost) in p.successors(parentState)
  }

  /** The shape of a BFS backtrack table: the start entry first, and every
      later entry pushed while expanding an earlier one. */
  ghost predicate BfsTable<S, A>(p: Problem<S, A>, backtrack: seq<BfsEntry<S, A>>)
  {
    && |backtrack| >= 1
    && backtrack[0] == BfsStart(p)
    && forall i :: 1 <= i < |backtrack| ==> EntryLinked(p, backtrack, i)
  }

  /** Entry `i` names an earlier entry as parent and is one of its successors. */
  ghost predicate EntryLinked<S, A>(p: Problem<S, A>, backtrack: seq<BfsEntry<S, A>>, i: nat)
    requires i < |backtrack|
  {
    backtrack[i].parent < i && Linked(p, backtrack[i].node, backtrack[backtrack[i].parent].node.state)
  }

  lemma StatesAppend<S, A>(backtrack: seq<BfsEntry<S, A>>, entry: BfsEntry<S, A>)
    ensures States(backtrack + [entry]) == States(backtrack) + {entry.node.state}
  {
    var b := backtrack + [entry];
    forall x | x in States(b) ensures x in States(backtrack) + {entry.node.state} {
      var i :| 0 <= i < |b| && b[i].node.state == x;
      if i < |backtrack| {
        assert backtrack[i].node.state == x;
      }
    }
    forall x | x in States(backtrack) + {entry.node.state} ensures x in States(b) {
      if x == entry.node.state {
        assert b[|backtrack|].node.state == x;
      } else {
        var i :| 0 <= i < |backtrack| && backtrack[i].node.state == x;
        assert b[i].node.state == x;
      }
    }
  }

  /** Recording a state that is not yet visited keeps the visited set equal to
      the states of the table and the table free of duplicates. */
  lemma PushFresh<S, A>(backtrack: seq<BfsEntry<S, A>>, visited: set<S>, entry: BfsEntry<S, A>)
    requires visited == States(backtrack) && |visited| == |backtrack|
    requires DistinctStates(backtrack)
    requires entry.node.state !in visited
    ensures visited + {entry.node.state} == States(backtrack + [entry])
    ensures |visited + {entry.node.state}| == |backtrack + [entry]|
    ensures DistinctStates(backtrack + [entry])
  {
    StatesAppend(backtrack, entry);
    var b := backtrack + [entry];
    forall i, j | 0 <= i < j < |b| ensures b[i].node.state != b[j].node.state {
      if j == |backtrack| {
        assert b[i].node.state in States(backtrack);
      }
    }
  }

  /** The states of a list of successor triples. */
  ghost function TripleStates<S, A>(ts: seq<Triple<S, A>>): set<S>
  {
    set i | 0 <= i < |ts| :: ts[i].state
  }

  lemma TripleStatesSnoc<S, A>(ts: seq<Triple<S, A>>, t: Triple<S, A>)
    ensures TripleStates(ts + [t]) == TripleStates(ts) + {t.state}
  {
    var us := ts + [t];
    forall x | x in TripleStates(us) ensures x in TripleStates(ts) + {t.state} {
      var i :| 0 <= i < |us| && us[i].state == x;
      if i < |ts| {
        assert ts[i].state == x;
      }
    }
    forall x | x in TripleStates(ts) ensures x in TripleStates(us) {
      var i :| 0 <= i < |ts| && ts[i].state == x;
      assert us[i].state == x;
    }
    assert us[|ts|].state == t.state;
  }

  /** Reference for what one BFS expansion pushes: the successors in list
      order whose state is neither in `seen` nor pushed earlier in the same
      expansion. */
  ghost function FreshSuccessors<S, A>(ts: seq<Triple<S, A>>, seen: set<S>): seq<Triple<S, A>>
    decreases |ts|
  {
    if ts == [] then []
    else
      var prev := FreshSuccessors(ts[..|ts| - 1], seen);
      var last := ts[|ts| - 1];
      if last.state in seen || last.state in TripleStates(prev) then prev else prev + [last]
  }

  /** The fringe node BFS pushes for a successor triple. */
  function NodeOf<S, A>(t: Triple<S, A>): Node<S, A>
  {
    Node(t.state, Some(t.action), t.cost)
  }

  /** After the first `done` successors of `parentState`, the entries appended
      to the table are exactly the fresh ones among them, in successor-list
      order, and they are what was added to the visited set. */
  ghost predicate InOrder<S, A>(p: Problem<S, A>, parentState: S, done: nat,
                                visited: set<S>, backtrack: seq<BfsEntry<S, A>>,
                                visited': set<S>, backtrack': seq<BfsEntry<S, A>>)
  {
    && done <= |p.successors(parentState)|
    && var pushed := FreshSuccessors(p.successors(parentState)[..done], visited);
       && visited' == visited + TripleStates(pushed)
       && |backtrack'| == |backtrack| + |pushed|
       && forall k :: 0 <= k < |pushed| ==> backtrack'[|backtrack| + k].node == NodeOf(pushed[k])
  }

  /** One iteration of the inner BFS loop keeps the appended entries equal to
      the fresh successors seen so far. */
  lemma InOrderStep<S, A>(p: Problem<S, A>, parentState: S, tracker: nat, done: nat,
                          visited: set<S>, backtrack: seq<BfsEntry<S, A>>,
                          visited': set<S>, backtrack': seq<BfsEntry<S, A>>)
    requires InOrder(p, parentState, done, visited, backtrack, visited', backtrack')
    requires done < |p.successors(parentState)|
    ensures var triple := p.successors(parentState)[done];
            if triple.state in visited' then
              InOrder(p, parentState, done + 1, visited, backtrack, visited', backtrack')
            else
              InOrder(p, parentState, done + 1, visited, backtrack,
                      visited' + {triple.state}, backtrack' + [BfsEntry(NodeOf(triple), tracker)])
  {
    var succs := p.successors(parentState);
    var triple := succs[done];
    var ts := succs[..done + 1];
    assert ts[..|ts| - 1] == succs[..done];
    assert ts[|ts| - 1] == triple;
    var prev := FreshSuccessors(succs[..done], visited);
    if triple.state !in visited' {
      TripleStatesSnoc(prev, triple);
      var b := backtrack' + [BfsEntry(NodeOf(triple), tracker)];
      var pushed := prev + [triple];
      forall k | 0 <= k < |pushed| ensures b[|backtrack| + k].node == NodeOf(pushed[k]) {
        if k < |prev| {
          assert b[|backtrack| + k] == backtrack'[|backtrack| + k];
        }
      }
    }
  }

  /** The effect of the first `done` iterations of one BFS expansion of
      `parentState` (entry `tracker`): the table and the fringe grew by the
      same fresh nodes in the same order, each a successor of `parentState`
      recorded with parent index `tracker`, and the first `done` successors are
      all visited. */
  ghost predicate PartlyExpanded<S, A>(p: Problem<S, A>, parentState: S, tracker: nat, done: nat,
                                       visited: set<S>, fringe: seq<Node<S, A>>, backtrack: seq<BfsEntry<S, A>>,
                                       visited': set<S>, fringe': seq<Node<S, A>>, backtrack': seq<BfsEntry<S, A>>)
  {
    && done <= |p.successors(parentState)|
    && visited' == States(backtrack') && |visited'| == |backtrack'|
    && DistinctStates(backtrack')
    && |backtrack| <= |backtrack'|
    && (forall k :: 0 <= k < |backtrack| ==> backtrack'[k] == backtrack[k])
    && |fringe'| == |fringe| + (|backtrack'| - |backtrack|)
    && (forall k :: 0 <= k < |fringe| ==> fringe'[k] == fringe[k])
    && (forall k :: |backtrack| <= k < |backtrack'| ==> fringe'[|fringe| + (k - |backtrack|)] == backtrack'[k].node)
    && (forall k :: |backtrack| <= k < |backtrack'| ==>
          backtrack'[k].parent == tracker && Linked(p, backtrack'[k].node, parentState))
    && (forall j :: 0 <= j < done ==> p.successors(parentState)[j].state in visited')
  }

  /** The whole expansion: every successor of `parentState` is visited. */
  ghost predicate ExpandedFrom<S, A>(p: Problem<S, A>, parentState: S, tracker: nat,
                                     visited: set<S>, fringe: seq<Node<S, A>>, backtrack: seq<BfsEntry<S, A>>,
                                     visited': set<S>, fringe': seq<Node<S, A>>, backtrack': seq<BfsEntry<S, A>>)
  {
    PartlyExpanded(p, parentState, tracker, |p.successors(parentState)|, visited, fringe, backtrack, visited', fringe', backtrack')
  }

  /** One iteration of the inner BFS loop: the successor `done` is pushed and
      recorded when it is not visited yet, and skipped otherwise. */
  lemma ExpandOne<S, A>(p: Problem<S, A>, parentState: S, tracker: nat, done: nat,
                        visited: set<S>, fringe: seq<Node<S, A>>, backtrack: seq<BfsEntry<S, A>>,
                        visited': set<S>, fringe': seq<Node<S, A>>, backtrack': seq<BfsEntry<S, A>>)
    requires PartlyExpanded(p, parentState, tracker, done, visited, fringe, backtrack, visited', fringe', backtrack')
    requires done < |p.successors(parentState)|
    ensures var triple := p.successors(parentState)[done];
            var node := Node(triple.state, Some(triple.action), triple.cost);
            if triple.state in visited' then
              PartlyExpanded(p, parentState, tracker, done + 1, visited, fringe, backtrack, visited', fringe', backtrack')
            else
              PartlyExpanded(p, parentState, tracker, done + 1, visited, fringe, backtrack,
                             visited' + {triple.state}, fringe' + [node], backtrack' + [BfsEntry(node, tracker)])
  {
    var triple := p.successors(parentState)[done];
    if triple.state !in visited' {
      var node := Node(triple.state, Some(triple.action), triple.cost);
      var entry := BfsEntry(node, tracker);
      PushFresh(backtrack', visited', entry);
      var b := backtrack' + [entry];
      var f := fringe' + [node];
      assert Linked(p, node, parentState);
      forall k | |backtrack| <= k < |b| ensures f[|fringe| + (k - |backtrack|)] == b[k].node {
        if k == |backtrack'| {
          assert |fringe| + (k - |backtrack|) == |fringe'|;
        }
      }
    }
  }

  /** The inner loop of BFS: push every successor of `parentState` that is not
      yet visited, mark it visited and record it in the backtrack table with
      parent index `tracker`. */
  method BfsExpand<S(==), A>(p: Problem<S, A>, ghost universe: set<S>, parentState: S, tracker: nat,
                             visited: set<S>, fringe: seq<Node<S, A>>, backtrack: seq<BfsEntry<S, A>>)
    returns (visited': set<S>, fringe': seq<Node<S, A>>, backtrack': seq<BfsEntry<S, A>>)
    requires visited == States(backtrack) && |visited| == |backtrack|
    requires DistinctStates(backtrack)
    requires visited <= universe && parentState in universe && Closed(p, universe)
    ensures ExpandedFrom(p, parentState, tracker, visited, fringe, backtrack, visited', fringe', backtrack')
    ensures InOrder(p, parentState, |p.successors(parentState)|, visited, backtrack, visited', backtrack')
    ensures visited <= visited' <= universe
  {
    var successors := p.successors(parentState);
    visited', fringe', backtrack' := visited, fringe, backtrack;
    var i := 0;
    assert successors[..0] == [];
    while i < |successors|
      invariant PartlyExpanded(p, parentState, tracker, i, visited, fringe, backtrack, visited', fringe', backtrack')
      invariant InOrder(p, parentState, i, visited, backtrack, visited', backtrack')
      invariant visited <= visited' <= universe
    {
      assert successors[i] in successors;
      visited', fringe', backtrack' := BfsPushOne(p, parentState, tracker, i, visited, fringe, backtrack, visited', fringe', backtrack');
      i := i + 1;
    }
    assert successors[..i] == successors[..|p.successors(parentState)|];
  }

  /** One iteration of the inner BFS loop: push and record successor `done`
      unless its state is already visited. */
  method BfsPushOne<S(==), A>(p: Problem<S, A>, parentState: S, tracker: nat, done: nat,
                              visited: set<S>, fringe: seq<Node<S, A>>, backtrack: seq<BfsEntry<S, A>>,
                              visited': set<S>, fringe': seq<Node<S, A>>, backtrack': seq<BfsEntry<S, A>>)
    returns (visited'': set<S>, fringe'': seq<Node<S, A>>, backtrack'': seq<BfsEntry<S, A>>)
    requires PartlyExpanded(p, parentState, tracker, done, visited, fringe, backtrack, visited', fringe', backtrack')
    requires InOrder(p, parentState, done, visited, backtrack, visited', backtrack')
    requires done < |p.successors(parentState)|
    ensures PartlyExpanded(p, parentState, tracker, done + 1, visited, fringe, backtrack, visited'', fringe'', backtrack'')
    ensures InOrder(p, parentState, done + 1, visited, backtrack, visited'', backtrack'')
    ensures visited' <= visited'' <= visited' + {p.successors(parentState)[done].state}
  {
    var triple := p.successors(parentState)[done];
    ExpandOne(p, parentState, tracker, done, visited, fringe, backtrack, visited', fringe', backtrack');
    InOrderStep(p, parentState, tracker, done, visited, backtrack, visited', backtrack');
    if triple.state in visited' {
      return visited', fringe', backtrack';
    }
    var node := NodeOf(triple);
    visited'', fringe'', backtrack'' := visited' + {triple.state}, fringe' + [node], backtrack' + [BfsEntry(node, tracker)];
  }

  /** Parents never decrease along the table: BFS appends the children of
      entry k before those of entry k + 1. */
  ghost predicate ParentsSorted<S, A>(backtrack: seq<BfsEntry<S, A>>)
  {
    forall i, j :: 1 <= i < j < |backtrack| ==> backtrack[i].parent <= backtrack[j].parent
  }

  /** State `s` is in the table at entry 0 or at an entry appended while
      expanding entry `k` or an earlier one. */
  ghost predicate SeenBy<S, A>(backtrack: seq<BfsEntry<S, A>>, s: S, k: nat)
  {
    exists j :: 0 <= j < |backtrack| && backtrack[j].node.state == s && (j == 0 || backtrack[j].parent <= k)
  }

  /** The level structure of a BFS table after `tracker` expansions: every
      parent is an expanded entry, parents are sorted, and every successor of
      an expanded entry `k` was in the table by the end of expanding `k`. */
  ghost predicate Layered<S, A>(p: Problem<S, A>, backtrack: seq<BfsEntry<S, A>>, tracker: nat)
  {
    && tracker <= |backtrack|
    && (forall i :: 1 <= i < |backtrack| ==> backtrack[i].parent < tracker)
    && ParentsSorted(backtrack)
    && (forall k, e :: 0 <= k < tracker && e in p.successors(backtrack[k].node.state) ==> SeenBy(backtrack, e.state, k))
  }

  /** Expanding entry `tracker` keeps the table layered. */
  lemma LayeredAfterExpand<S, A>(p: Problem<S, A>, backtrack: seq<BfsEntry<S, A>>, tracker: nat,
                                 visited': set<S>, backtrack': seq<BfsEntry<S, A>>)
    requires Layered(p, backtrack, tracker) && tracker < |backtrack| <= |backtrack'|
    requires forall k :: 0 <= k < |backtrack| ==> backtrack'[k] == backtrack[k]
    requires forall k :: |backtrack| <= k < |backtrack'| ==> backtrack'[k].parent == tracker
    requires visited' == States(backtrack')
    requires forall e :: e in p.successors(backtrack[tracker].node.state) ==> e.state in visited'
    ensures Layered(p, backtrack', tracker + 1)
  {
    forall i, j | 1 <= i < j < |backtrack'| ensures backtrack'[i].parent <= backtrack'[j].parent {
      if j < |backtrack| {
        assert backtrack'[i] == backtrack[i] && backtrack'[j] == backtrack[j];
      } else if i < |backtrack| {
        assert backtrack'[i] == backtrack[i];
      }
    }
    forall k, e | 0 <= k < tracker + 1 && e in p.successors(backtrack'[k].node.state) ensures SeenBy(backtrack', e.state, k) {
      assert backtrack'[k] == backtrack[k];
      if k < tracker {
        var j :| 0 <= j < |backtrack| && backtrack[j].node.state == e.state && (j == 0 || backtrack[j].parent <= k);
        assert backtrack'[j] == backtrack[j];
      } else {
        var j :| 0 <= j < |backtrack'| && backtrack'[j].node.state == e.state;
        if j >= 1 && j < |backtrack| {
          assert backtrack'[j] == backtrack[j];
        }
      }
    }
  }

  /** What holds at the head of the BFS loop after `tracker` expansions: the
      fringe is exactly the table from index `tracker` on (FIFO order matches
      append order), `popped` is the table before it, the visited set is the
      set of states in the table, and every expanded entry was not a goal and
      had all its successors marked visited; the table is layered. */
  ghost predicate BfsLoop<S, A>(p: Problem<S, A>, universe: set<S>, visited: set<S>, fringe: seq<Node<S, A>>,
                                backtrack: seq<BfsEntry<S, A>>, popped: seq<Node<S, A>>, tracker: nat)
  {
    BfsBookkeeping(p, universe, visited, fringe, backtrack, popped, tracker) && Layered(p, backtrack, tracker)
  }

  /** The BFS loop invariant without the level structure. */
  ghost predicate BfsBookkeeping<S, A>(p: Problem<S, A>, universe: set<S>, visited: set<S>, fringe: seq<Node<S, A>>,
                                       backtrack: seq<BfsEntry<S, A>>, popped: seq<Node<S, A>>, tracker: nat)
  {
    && BfsTable(p, backtrack)
    && DistinctStates(backtrack)
    && visited == States(backtrack) && |visited| == |backtrack|
    && visited <= universe
    && tracker <= |backtrack| <= |universe|
    && |popped| == tracker
    && (forall k :: 0 <= k < tracker ==> popped[k] == backtrack[k].node)
    && |fringe| == |backtrack| - tracker
    && (forall k :: 0 <= k < |fringe| ==> fringe[k] == backtrack[tracker + k].node)
    && (forall k :: 0 <= k < tracker ==> !p.isGoal(backtrack[k].node.state))
    && (forall k, e :: 0 <= k < tracker && e in p.successors(backtrack[k].node.state) ==> e.state in visited)
  }

  lemma TableAfterExpand<S, A>(p: Problem<S, A>, backtrack: seq<BfsEntry<S, A>>, backtrack': seq<BfsEntry<S, A>>, tracker: nat)
    requires BfsTable(p, backtrack) && tracker < |backtrack| <= |backtrack'|
    requires forall k :: 0 <= k < |backtrack| ==> backtrack'[k] == backtrack[k]
    requires forall k :: |backtrack| <= k < |backtrack'| ==>
               backtrack'[k].parent == tracker && Linked(p, backtrack'[k].node, backtrack[tracker].node.state)
    ensures BfsTable(p, backtrack')
  {
    forall i | 1 <= i < |backtrack'| ensures EntryLinked(p, backtrack', i) {
      if i < |backtrack| {
        assert EntryLinked(p, backtrack, i);
      }
    }
  }

  /** One iteration of the BFS loop that pops a non-goal node and expands it
      re-establishes the loop invariant with `tracker` one higher. */
  lemma BfsLoopStep<S, A>(p: Problem<S, A>, universe: set<S>, visited: set<S>, fringe: seq<Node<S, A>>,
                          backtrack: seq<BfsEntry<S, A>>, popped: seq<Node<S, A>>, tracker: nat,
                          visited': set<S>, fringe': seq<Node<S, A>>, backtrack': seq<BfsEntry<S, A>>)
    requires BfsBookkeeping(p, universe, visited, fringe, backtrack, popped, tracker)
    requires fringe != [] && !p.isGoal(fringe[0].state)
    requires ExpandedFrom(p, fringe[0].state, tracker, visited, fringe[1..], backtrack, visited', fringe', backtrack')
    requires visited <= visited' <= universe
    ensures BfsBookkeeping(p, universe, visited', fringe', backtrack', popped + [fringe[0]], tracker + 1)
  {
    var cur := fringe[0];
    var popped' := popped + [cur];
    assert cur == backtrack[tracker].node;
    TableAfterExpand(p, backtrack, backtrack', tracker);
    SubsetCardinality(visited', universe);
    FifoAfterExpand(fringe[1..], backtrack, fringe', backtrack', tracker + 1);
    DoneAfterExpand(p, visited, backtrack, popped, tracker, visited', backtrack');
  }

  /** The entries up to and including the one just expanded are the popped
      nodes, none is a goal and all their successors are visited. */
  lemma DoneAfterExpand<S, A>(p: Problem<S, A>, visited: set<S>, backtrack: seq<BfsEntry<S, A>>,
                              popped: seq<Node<S, A>>, tracker: nat,
                              visited': set<S>, backtrack': seq<BfsEntry<S, A>>)
    requires tracker < |backtrack| <= |backtrack'| && |popped| == tracker
    requires forall k :: 0 <= k < |backtrack| ==> backtrack'[k] == backtrack[k]
    requires visited <= visited'
    requires forall k :: 0 <= k < tracker ==> popped[k] == backtrack[k].node
    requires forall k :: 0 <= k < tracker ==> !p.isGoal(backtrack[k].node.state)
    requires forall k, e :: 0 <= k < tracker && e in p.successors(backtrack[k].node.state) ==> e.state in visited
    requires !p.isGoal(backtrack[tracker].node.state)
    requires forall e :: e in p.successors(backtrack[tracker].node.state) ==> e.state in visited'
    ensures forall k :: 0 <= k < tracker + 1 ==> (popped + [backtrack[tracker].node])[k] == backtrack'[k].node
    ensures forall k :: 0 <= k < tracker + 1 ==> !p.isGoal(backtrack'[k].node.state)
    ensures forall k, e :: 0 <= k < tracker + 1 && e in p.successors(backtrack'[k].node.state) ==> e.state in visited'
  {
    var popped' := popped + [backtrack[tracker].node];
    forall k | 0 <= k < tracker + 1 ensures popped'[k] == backtrack'[k].node {
      if k < tracker {
        assert popped'[k] == popped[k];
      }
    }
    forall k | 0 <= k < tracker + 1 ensures !p.isGoal(backtrack'[k].node.state) {
      assert backtrack'[k] == backtrack[k];
    }
    forall k, e | 0 <= k < tracker + 1 && e in p.successors(backtrack'[k].node.state) ensures e.state in visited' {
      assert backtrack'[k] == backtrack[k];
    }
  }

  /** The BFS loop invariant holds before the first iteration. */
  lemma BfsLoopInit<S, A>(p: Problem<S, A>, universe: set<S>)
    requires p.start in universe
    ensures BfsLoop(p, universe, {p.start}, [BfsStart(p).node], [BfsStart(p)], [], 0)
  {
    var backtrack := [BfsStart(p)];
    assert States(backtrack) == {p.start} by {
      assert backtrack[0].node.state == p.start;
    }
    SubsetCardinality({p.start}, universe);
  }

  /** FIFO order survives an expansion: if the fringe is the table from index
      `from` on before the pushes, it still is afterwards. */
  lemma FifoAfterExpand<S, A>(fringe: seq<Node<S, A>>, backtrack: seq<BfsEntry<S, A>>,
                              fringe': seq<Node<S, A>>, backtrack': seq<BfsEntry<S, A>>, from: nat)
    requires from <= |backtrack| && |fringe| == |backtrack| - from
    requires forall k :: 0 <= k < |fringe| ==> fringe[k] == backtrack[from + k].node
    requires |backtrack| <= |backtrack'|
    requires forall k :: 0 <= k < |backtrack| ==> backtrack'[k] == backtrack[k]
    requires |fringe'| == |fringe| + (|backtrack'| - |backtrack|)
    requires forall k :: 0 <= k < |fringe| ==> fringe'[k] == fringe[k]
    requires forall k :: |backtrack| <= k < |backtrack'| ==> fringe'[|fringe| + (k - |backtrack|)] == backtrack'[k].node
    ensures |fringe'| == |backtrack'| - from
    ensures forall k :: 0 <= k < |fringe'| ==> fringe'[k] == backtrack'[from + k].node
  {
    forall k | 0 <= k < |fringe'| ensures fringe'[k] == backtrack'[from + k].node {
      if k >= |fringe| {
        var j := from + k;
        assert |fringe| + (j - |backtrack|) == k;
      }
    }
  }

  /** When the fringe runs empty, the visited states are closed under
      successors and hold no goal, so no plan from the start reaches a goal. */
  lemma BfsExhaustedNoGoal<S(!new), A(!new)>(p: Problem<S, A>, universe: set<S>, visited: set<S>,
                                             backtrack: seq<BfsEntry<S, A>>, popped: seq<Node<S, A>>, tracker: nat)
    requires BfsLoop(p, universe, visited, [], backtrack, popped, tracker)
    ensures NoGoalReachable(p, p.start)
  {
    assert backtrack[0].node.state == p.start;
    forall x, e | x in visited && e in p.successors(x) ensures e.state in visited {
      var k :| 0 <= k < |backtrack| && backtrack[k].node.state == x;
    }
    forall plan, t | Reaches(p, p.start, plan, t) ensures !p.isGoal(t) {
      ReachesStaysInside(p, visited, p.start, plan, t);
      var k :| 0 <= k < |backtrack| && backtrack[k].node.state == t;
    }
  }

  /** The depth of entry `i`: the number of parent links down to entry 0. */
  ghost function Depth<S, A>(backtrack: seq<BfsEntry<S, A>>, i: nat): nat
    decreases i
  {
    if i == 0 || i >= |backtrack| || backtrack[i].parent >= i then 0
    else Depth(backtrack, backtrack[i].parent) + 1
  }

  /** In a table with sorted parents, depth never decreases along the table. */
  lemma {:induction false} DepthMonotone<S, A>(p: Problem<S, A>, backtrack: seq<BfsEntry<S, A>>, i: nat, j: nat)
    requires BfsTable(p, backtrack) && ParentsSorted(backtrack)
    requires i <= j < |backtrack|
    ensures Depth(backtrack, i) <= Depth(backtrack, j)
    decreases j
  {
    if i != 0 && i != j {
      assert EntryLinked(p, backtrack, i);
      assert EntryLinked(p, backtrack, j);
      DepthMonotone(p, backtrack, backtrack[i].parent, backtrack[j].parent);
    }
  }

  /** In a layered table, a state that a plan no longer than the depth of
      entry `tracker` reaches from the start is in the table at an entry no
      deeper than the plan is long. */
  lemma {:induction false} ShallowSeen<S, A>(p: Problem<S, A>, backtrack: seq<BfsEntry<S, A>>, tracker: nat, plan: seq<A>, t: S)
    returns (j: nat)
    requires BfsTable(p, backtrack) && ParentsSorted(backtrack) && tracker < |backtrack|
    requires forall k, e :: 0 <= k < tracker && e in p.successors(backtrack[k].node.state) ==> SeenBy(backtrack, e.state, k)
    requires Reaches(p, p.start, plan, t) && |plan| <= Depth(backtrack, tracker)
    ensures j < |backtrack| && backtrack[j].node.state == t && Depth(backtrack, j) <= |plan|
    decreases |plan|
  {
    if plan == [] {
      j := 0;
    } else {
      var u, e := ReachesLast(p, p.start, plan, t);
      var i := ShallowSeen(p, backtrack, tracker, plan[..|plan| - 1], u);
      if i >= tracker {
        DepthMonotone(p, backtrack, tracker, i);
        assert false;
      }
      assert SeenBy(backtrack, e.state, i);
      j :| 0 <= j < |backtrack| && backtrack[j].node.state == t && (j == 0 || backtrack[j].parent <= i);
      if j != 0 {
        assert EntryLinked(p, backtrack, j);
        DepthMonotone(p, backtrack, backtrack[j].parent, i);
      }
    }
  }

  /** No plan from the start that reaches a goal is shorter than `plan`. */
  ghost predicate ShortestPlan<S(!new), A(!new)>(p: Problem<S, A>, plan: seq<A>)
  {
    forall plan', t :: Reaches(p, p.start, plan', t) && p.isGoal(t) ==> |plan| <= |plan'|
  }

  /** In a layered table whose entries before `tracker` are not goals, no plan
      shorter than the depth of entry `tracker` reaches a goal. */
  lemma BfsShortest<S(!new), A(!new)>(p: Problem<S, A>, backtrack: seq<BfsEntry<S, A>>, tracker: nat, plan: seq<A>)
    requires BfsTable(p, backtrack) && ParentsSorted(backtrack) && tracker < |backtrack|
    requires forall k, e :: 0 <= k < tracker && e in p.successors(backtrack[k].node.state) ==> SeenBy(backtrack, e.state, k)
    requires forall k :: 0 <= k < tracker ==> !p.isGoal(backtrack[k].node.state)
    requires |plan| == Depth(backtrack, tracker)
    ensures ShortestPlan(p, plan)
  {
    forall plan', t | Reaches(p, p.start, plan', t) && p.isGoal(t) ensures |plan| <= |plan'| {
      if |plan'| < |plan| {
        var j := ShallowSeen(p, backtrack, tracker, plan', t);
        if j >= tracker {
          DepthMonotone(p, backtrack, tracker, j);
        }
        assert false;
      }
    }
  }

  /** Following parent indices from entry `from` down to entry 0 and reversing
      the collected actions yields a plan that replays from the start to the
      state of entry `from`. */
  method BfsPlan<S, A>(p: Problem<S, A>, backtrack: seq<BfsEntry<S, A>>, from: nat) returns (path: seq<A>)
    requires BfsTable(p, backtrack) && from < |backtrack|
    ensures Reaches(p, p.start, path, backtrack[from].node.state)
    ensures |path| == Depth(backtrack, from)
    ensures from == 0 ==> path == []
  {
    var goal := backtrack[from].node.state;
    path := [];
    var tracker := from;
    while tracker != 0
      invariant 0 <= tracker < |backtrack|
      invariant Reaches(p, backtrack[tracker].node.state, Reverse(path), goal)
      invariant |path| + Depth(backtrack, tracker) == Depth(backtrack, from)
      invariant from == 0 ==> path == []
      decreases tracker
    {
      assert EntryLinked(p, backtrack, tracker);
      var entry := backtrack[tracker];
      var action := entry.node.action.value;
      ReachesCons(p, backtrack[entry.parent].node.state, Triple(entry.node.state, action, entry.node.cost), Reverse(path), goal);
      ReverseSnoc(path, action);
      path := path + [action];
      tracker := entry.parent;
    }
    path := Reverse(path);
  }

  /** One iteration of the BFS main loop: pop the front node, which is not a
      goal, and expand it. */
  method BfsRound<S(==), A>(p: Problem<S, A>, ghost universe: set<S>, visited: set<S>, fringe: seq<Node<S, A>>,
                            backtrack: seq<BfsEntry<S, A>>, ghost popped: seq<Node<S, A>>, tracker: nat)
    returns (visited': set<S>, fringe': seq<Node<S, A>>, backtrack': seq<BfsEntry<S, A>>)
    requires Closed(p, universe)
    requires BfsLoop(p, universe, visited, fringe, backtrack, popped, tracker)
    requires fringe != [] && !p.isGoal(fringe[0].state)
    ensures BfsLoop(p, universe, visited', fringe', backtrack', popped + [fringe[0]], tracker + 1)
  {
    assert fringe[0] == backtrack[tracker].node;
    visited', fringe', backtrack' := BfsExpand(p, universe, fringe[0].state, tracker, visited, fringe[1..], backtrack);
    BfsLoopStep(p, universe, visited, fringe, backtrack, popped, tracker, visited', fringe', backtrack');
    LayeredAfterExpand(p, backtrack, tracker, visited', backtrack');
  }

  /** The BFS main loop: pop the front of the fringe, stop at a goal, expand
      anything else. Returns the loop state at the moment the loop ends: with
      the goal at the front of the fringe when `found`, with an empty fringe
      otherwise. `universe` is a finite successor-closed set of states holding
      the start, which bounds the search. */
  method BfsRun<S(==), A>(p: Problem<S, A>, ghost universe: set<S>)
    returns (found: bool, visited: set<S>, fringe: seq<Node<S, A>>, backtrack: seq<BfsEntry<S, A>>,
             popped: seq<Node<S, A>>, tracker: nat)
    requires p.start in universe
    requires Closed(p, universe)
    ensures BfsLoop(p, universe, visited, fringe, backtrack, popped, tracker)
    ensures found <==> fringe != []
    ensures found ==> p.isGoal(fringe[0].state)
    ensures p.isGoal(p.start) ==> found && tracker == 0
  {
    var start := BfsStart(p);
    fringe := [start.node];
    visited := {p.start};
    tracker := 0;
    backtrack := [start];
    popped := [];
    BfsLoopInit(p, universe);
    while fringe != [] && !p.isGoal(fringe[0].state)
      invariant BfsLoop(p, universe, visited, fringe, backtrack, popped, tracker)
      invariant p.isGoal(p.start) ==> tracker == 0
      decreases |universe| - tracker
    {
      var cur := fringe[0];
      visited, fringe, backtrack := BfsRound(p, universe, visited, fringe, backtrack, popped, tracker);
      popped := popped + [cur];
      tracker := tracker + 1;
    }
    found := fringe != [];
  }

  /** Breadth-first graph search. The fringe is a FIFO queue; a state is marked
      visited when it is generated, so it is pushed at most once; the plan is
      rebuilt from the backtrack table by following parent indices down to
      entry 0. `expanded` counts the calls of the successor function and
      `popped` lists the fringe elements in the order they were popped. */
  method BreadthFirstSearch<S(==, !new), A(!new)>(p: Problem<S, A>, ghost universe: set<S>)
    returns (r: SearchResult<S, A>, backtrack: seq<BfsEntry<S, A>>, popped: seq<Node<S, A>>, expanded: nat)
    requires p.start in universe
    requires Closed(p, universe)
    ensures BfsTable(p, backtrack)
    ensures DistinctStates(backtrack)
    ensures ParentsSorted(backtrack)
    ensures expanded <= |popped| <= |backtrack|
    ensures forall k :: 0 <= k < |popped| ==> popped[k] == backtrack[k].node
    ensures forall k :: 0 <= k < expanded ==> !p.isGoal(backtrack[k].node.state)
    ensures p.isGoal(p.start) ==> r == Found([], p.start) && expanded == 0
    ensures r.Found? ==>
              && |popped| == expanded + 1
              && popped[expanded].state == r.goal
              && p.isGoal(r.goal)
              && Reaches(p, p.start, r.plan, r.goal)
              && ShortestPlan(p, r.plan)
    ensures r.Exhausted? ==> |popped| == expanded == |backtrack| && NoGoalReachable(p, p.start)
  {
    var found, visited, fringe, tracker;
    found, visited, fringe, backtrack, popped, tracker := BfsRun(p, universe);
    expanded := tracker;
    if !found {
      BfsExhaustedNoGoal(p, universe, visited, backtrack, popped, tracker);
      r := Exhausted;
    } else {
      var cur := fringe[0];
      popped := popped + [cur];
      var path := BfsPlan(p, backtrack, tracker);
      BfsShortest(p, backtrack, tracker, path);
      r := Found(path, cur.state);
    }
  }

  // ---------------------------------------------------------------------
  // Uniform-cost search
  // ---------------------------------------------------------------------

  /** A UCS fringe element: state, action (none for the start), cost from the
      root and the pop counter of the node it was generated from. */
  datatype UcsNode<S, A> = UcsNode(state: S, action: Option<A>, costFromRoot: int, parent: nat)

  /** An element of the priority queue together with its priority. */
  datatype Prioritized<T> = Prioritized(item: T, priority: int)

  function UcsStart<S, A>(p: Problem<S, A>): UcsNode<S, A>
  {
    UcsNode(p.start, None, 0, 0)
  }

  /** The fringe element UCS pushes for successor `triple` of `cur`: its
      priority and its cost from the root are both the cost of `cur` plus the
      step cost, and its parent is `counter`. */
  function UcsPush<S, A>(cur: UcsNode<S, A>, triple: Triple<S, A>, counter: nat): Prioritized<UcsNode<S, A>>
  {
    var cost := triple.cost + cur.costFromRoot;
    Prioritized(UcsNode(triple.state, Some(triple.action), cost, counter), cost)
  }

  /** Position of an element of least priority. */
  function MinIndex<T>(q: seq<Prioritized<T>>): (k: nat)
    requires q != []
    ensures k < |q|
    ensures forall j :: 0 <= j < |q| ==> q[k].priority <= q[j].priority
  {
    if |q| == 1 then 0
    else
      var k := MinIndex(q[1..]) + 1;
      if q[0].priority <= q[k].priority then 0 else k
  }

  /** Pop from the priority queue: remove and return an element of least
      priority. Which one of several equal-priority elements is taken is left
      open. */
  method ExtractMin<T>(q: seq<Prioritized<T>>) returns (x: Prioritized<T>, rest: seq<Prioritized<T>>, ghost k: nat)
    requires q != []
    ensures k < |q| && x == q[k]
    ensures forall j :: 0 <= j < |q| ==> x.priority <= q[j].priority
    ensures rest == q[..k] + q[k + 1..]
  {
    ghost var least := MinIndex(q);
    var i :| 0 <= i < |q| && forall j :: 0 <= j < |q| ==> q[i].priority <= q[j].priority;
    x, rest, k := q[i], q[..i] + q[i + 1..], i;
  }

  ghost function UcsStates<S, A>(backtrack: seq<UcsNode<S, A>>): set<S>
  {
    set i | 0 <= i < |backtrack| :: backtrack[i].state
  }

  ghost function QueueStates<S, A>(q: seq<Prioritized<UcsNode<S, A>>>): set<S>
  {
    set j | 0 <= j < |q| :: q[j].item.state
  }

  ghost predicate UcsDistinct<S, A>(backtrack: seq<UcsNode<S, A>>)
  {
    forall i, j :: 0 <= i < j < |backtrack| ==> backtrack[i].state != backtrack[j].state
  }

  ghost predicate QueueDistinct<S, A>(q: seq<Prioritized<UcsNode<S, A>>>)
  {
    forall i, j :: 0 <= i < j < |q| ==> q[i].item.state != q[j].item.state
  }

  /** `child` is a successor of `parent` and its cost from the root is the
      parent's cost from the root plus the step cost. */
  ghost predicate UcsLinked<S, A>(p: Problem<S, A>, child: UcsNode<S, A>, parent: UcsNode<S, A>)
  {
    child.action.Some? && Triple(child.state, child.action.value, child.costFromRoot - parent.costFromRoot) in p.successors(parent.state)
  }

  ghost predicate UcsEntryLinked<S, A>(p: Problem<S, A>, backtrack: seq<UcsNode<S, A>>, i: nat)
    requires i < |backtrack|
  {
    backtrack[i].parent < i && UcsLinked(p, backtrack[i], backtrack[backtrack[i].parent])
  }

  /** The shape of the UCS backtrack table: the start node is popped first, and
      every later node names the counter of an earlier-popped node whose
      successor it is. */
  ghost predicate UcsTable<S, A>(p: Problem<S, A>, backtrack: seq<UcsNode<S, A>>)
  {
    && (|backtrack| > 0 ==> backtrack[0] == UcsStart(p))
    && forall i :: 1 <= i < |backtrack| ==> UcsEntryLinked(p, backtrack, i)
  }

  /** A queued node's priority is its cost from the root. */
  ghost predicate PriorityIsCost<S, A>(x: Prioritized<UcsNode<S, A>>)
  {
    x.priority == x.item.costFromRoot
  }

  /** A fringe element's priority is its cost from the root, and once a node
      has been popped it was generated from a popped node. */
  ghost predicate FringeOk<S, A>(p: Problem<S, A>, backtrack: seq<UcsNode<S, A>>, x: Prioritized<UcsNode<S, A>>)
  {
    && PriorityIsCost(x)
    && (|backtrack| > 0 ==> x.item.parent < |backtrack| && UcsLinked(p, x.item, backtrack[x.item.parent]))
  }

  ghost predicate QueueOk<S, A>(p: Problem<S, A>, backtrack: seq<UcsNode<S, A>>, fringe: seq<Prioritized<UcsNode<S, A>>>)
  {
    forall j {:trigger FringeOk(p, backtrack, fringe[j])} :: 0 <= j < |fringe| ==> FringeOk(p, backtrack, fringe[j])
  }

  /** The visited set is exactly the popped and the queued states. */
  ghost predicate Accounted<S, A>(visited: set<S>, fringe: seq<Prioritized<UcsNode<S, A>>>, backtrack: seq<UcsNode<S, A>>)
  {
    && visited == UcsStates(backtrack) + QueueStates(fringe)
    && |visited| == |backtrack| + |fringe|
  }

  /** No state is popped twice, queued twice, or both popped and queued. */
  ghost predicate Disjoint<S, A>(fringe: seq<Prioritized<UcsNode<S, A>>>, backtrack: seq<UcsNode<S, A>>)
  {
    && UcsDistinct(backtrack)
    && QueueDistinct(fringe)
    && (forall i, j :: 0 <= i < |backtrack| && 0 <= j < |fringe| ==> backtrack[i].state != fringe[j].item.state)
  }

  /** The first `done` popped nodes were not goals and were expanded. */
  ghost predicate Expanded<S, A>(p: Problem<S, A>, visited: set<S>, backtrack: seq<UcsNode<S, A>>, done: nat)
  {
    && done <= |backtrack|
    && (forall k :: 0 <= k < done ==> !p.isGoal(backtrack[k].state))
    && (forall k, e :: 0 <= k < done && e in p.successors(backtrack[k].state) ==> e.state in visited)
  }

  /** Popped costs never decrease, and nothing in the fringe is cheaper than
      the last pop. */
  ghost predicate Monotone<S, A>(backtrack: seq<UcsNode<S, A>>, fringe: seq<Prioritized<UcsNode<S, A>>>)
  {
    && (forall i, j :: 0 <= i < j < |backtrack| ==> backtrack[i].costFromRoot <= backtrack[j].costFromRoot)
    && (|backtrack| > 0 ==> forall j :: 0 <= j < |fringe| ==> backtrack[|backtrack| - 1].costFromRoot <= fringe[j].priority)
  }

  /** The UCS loop invariant; the first `done` popped nodes have been expanded. */
  ghost predicate UcsInv<S, A>(p: Problem<S, A>, universe: set<S>, visited: set<S>,
                               fringe: seq<Prioritized<UcsNode<S, A>>>, backtrack: seq<UcsNode<S, A>>, done: nat)
  {
    && UcsTable(p, backtrack)
    && (|backtrack| == 0 ==> fringe == [Prioritized(UcsStart(p), 0)] && visited == {p.start})
    && (done == |backtrack| || done + 1 == |backtrack|)
    && QueueOk(p, backtrack, fringe)
    && Accounted(visited, fringe, backtrack)
    && visited <= universe
    && Disjoint(fringe, backtrack)
    && Expanded(p, visited, backtrack, done)
    && (NonNegativeCosts(p, universe) ==> Monotone(backtrack, fringe))
  }

  lemma UcsInit<S, A>(p: Problem<S, A>, universe: set<S>)
    requires p.start in universe
    ensures UcsInv(p, universe, {p.start}, [Prioritized(UcsStart(p), 0)], [], 0)
  {
    var q := [Prioritized(UcsStart(p), 0)];
    assert QueueStates(q) == {p.start} by {
      assert q[0].item.state == p.start;
    }
    assert UcsStates<S, A>([]) == {};
  }

  lemma QueueStatesRemove<S, A>(q: seq<Prioritized<UcsNode<S, A>>>, k: nat)
    requires k < |q|
    ensures QueueStates(q) == QueueStates(q[..k] + q[k + 1..]) + {q[k].item.state}
  {
    var rest := q[..k] + q[k + 1..];
    forall s | s in QueueStates(q) ensures s in QueueStates(rest) + {q[k].item.state} {
      var j :| 0 <= j < |q| && q[j].item.state == s;
      if j < k {
        assert rest[j] == q[j];
      } else if j > k {
        assert rest[j - 1] == q[j];
      }
    }
    forall s | s in QueueStates(rest) + {q[k].item.state} ensures s in QueueStates(q) {
      if s != q[k].item.state {
        var j :| 0 <= j < |rest| && rest[j].item.state == s;
        if j < k {
          assert q[j] == rest[j];
        } else {
          assert q[j + 1] == rest[j];
        }
      }
    }
  }

  lemma UcsStatesAppend<S, A>(backtrack: seq<UcsNode<S, A>>, x: UcsNode<S, A>)
    ensures UcsStates(backtrack + [x]) == UcsStates(backtrack) + {x.state}
  {
    var b := backtrack + [x];
    forall s | s in UcsStates(b) ensures s in UcsStates(backtrack) + {x.state} {
      var i :| 0 <= i < |b| && b[i].state == s;
      if i < |backtrack| {
        assert backtrack[i].state == s;
      }
    }
    forall s | s in UcsStates(backtrack) + {x.state} ensures s in UcsStates(b) {
      if s == x.state {
        assert b[|backtrack|].state == s;
      } else {
        var i :| 0 <= i < |backtrack| && backtrack[i].state == s;
        assert b[i].state == s;
      }
    }
  }

  lemma QueueStatesAppend<S, A>(q: seq<Prioritized<UcsNode<S, A>>>, added: seq<Prioritized<UcsNode<S, A>>>)
    ensures QueueStates(q + added) == QueueStates(q) + QueueStates(added)
  {
    var b := q + added;
    forall s | s in QueueStates(b) ensures s in QueueStates(q) + QueueStates(added) {
      var i :| 0 <= i < |b| && b[i].item.state == s;
      if i < |q| {
        assert q[i].item.state == s;
      } else {
        assert added[i - |q|].item.state == s;
      }
    }
    forall s | s in QueueStates(q) + QueueStates(added) ensures s in QueueStates(b) {
      if s in QueueStates(q) {
        var i :| 0 <= i < |q| && q[i].item.state == s;
        assert b[i].item.state == s;
      } else {
        var i :| 0 <= i < |added| && added[i].item.state == s;
        assert b[|q| + i].item.state == s;
      }
    }
  }

  // Popping: each part of the invariant survives moving fringe[k] to the table.

  lemma PopTable<S, A>(p: Problem<S, A>, fringe: seq<Prioritized<UcsNode<S, A>>>, backtrack: seq<UcsNode<S, A>>, k: nat)
    requires UcsTable(p, backtrack) && QueueOk(p, backtrack, fringe)
    requires |backtrack| == 0 ==> fringe == [Prioritized(UcsStart(p), 0)]
    requires k < |fringe|
    ensures UcsTable(p, backtrack + [fringe[k].item])
    ensures |backtrack| == 0 ==> fringe[k].item == UcsStart(p)
  {
    var b := backtrack + [fringe[k].item];
    assert FringeOk(p, backtrack, fringe[k]);
    forall i | 1 <= i < |b| ensures UcsEntryLinked(p, b, i) {
      if i < |backtrack| {
        assert UcsEntryLinked(p, backtrack, i);
      }
    }
  }

  lemma PopQueueOk<S, A>(p: Problem<S, A>, fringe: seq<Prioritized<UcsNode<S, A>>>, backtrack: seq<UcsNode<S, A>>, k: nat)
    requires QueueOk(p, backtrack, fringe)
    requires |backtrack| == 0 ==> |fringe| == 1
    requires k < |fringe|
    ensures QueueOk(p, backtrack + [fringe[k].item], fringe[..k] + fringe[k + 1..])
  {
    var b := backtrack + [fringe[k].item];
    var rest := fringe[..k] + fringe[k + 1..];
    forall j | 0 <= j < |rest| ensures FringeOk(p, b, rest[j]) {
      var y := if j < k then fringe[j] else fringe[j + 1];
      assert rest[j] == y;
      assert FringeOk(p, backtrack, y);
    }
  }

  lemma PopAccounted<S, A>(visited: set<S>, fringe: seq<Prioritized<UcsNode<S, A>>>, backtrack: seq<UcsNode<S, A>>, k: nat)
    requires Accounted(visited, fringe, backtrack)
    requires k < |fringe|
    ensures Accounted(visited, fringe[..k] + fringe[k + 1..], backtrack + [fringe[k].item])
  {
    QueueStatesRemove(fringe, k);
    UcsStatesAppend(backtrack, fringe[k].item);
  }

  lemma PopDisjoint<S, A>(fringe: seq<Prioritized<UcsNode<S, A>>>, backtrack: seq<UcsNode<S, A>>, k: nat)
    requires Disjoint(fringe, backtrack)
    requires k < |fringe|
    ensures Disjoint(fringe[..k] + fringe[k + 1..], backtrack + [fringe[k].item])
  {
    var b := backtrack + [fringe[k].item];
    var rest := fringe[..k] + fringe[k + 1..];
    assert forall j :: 0 <= j < |rest| ==> rest[j] == (if j < k then fringe[j] else fringe[j + 1]);
    forall i, j | 0 <= i < |b| && 0 <= j < |rest| ensures b[i].state != rest[j].item.state {
      if i < |backtrack| {
        assert b[i] == backtrack[i];
      }
    }
    forall i, j | 0 <= i < j < |b| ensures b[i].state != b[j].state {
      if j == |backtrack| {
        assert b[i] == backtrack[i];
      } else {
        assert b[i] == backtrack[i] && b[j] == backtrack[j];
      }
    }
  }

  lemma PopExpanded<S, A>(p: Problem<S, A>, visited: set<S>, backtrack: seq<UcsNode<S, A>>, x: UcsNode<S, A>)
    requires Expanded(p, visited, backtrack, |backtrack|)
    ensures Expanded(p, visited, backtrack + [x], |backtrack|)
  {
    var b := backtrack + [x];
    forall k | 0 <= k < |backtrack| ensures b[k] == backtrack[k] { }
  }

  lemma PopMonotone<S, A>(fringe: seq<Prioritized<UcsNode<S, A>>>, backtrack: seq<UcsNode<S, A>>, k: nat)
    requires Monotone(backtrack, fringe)
    requires FringeOkPriority(fringe)
    requires k < |fringe|
    requires forall j :: 0 <= j < |fringe| ==> fringe[k].priority <= fringe[j].priority
    ensures Monotone(backtrack + [fringe[k].item], fringe[..k] + fringe[k + 1..])
  {
    var b := backtrack + [fringe[k].item];
    var rest := fringe[..k] + fringe[k + 1..];
    forall i, j | 0 <= i < j < |b| ensures b[i].costFromRoot <= b[j].costFromRoot {
      if j == |backtrack| {
        assert b[i] == backtrack[i];
        assert fringe[k].item.costFromRoot == fringe[k].priority;
      } else {
        assert b[i] == backtrack[i] && b[j] == backtrack[j];
      }
    }
    forall j | 0 <= j < |rest| ensures b[|b| - 1].costFromRoot <= rest[j].priority {
      assert fringe[k].item.costFromRoot == fringe[k].priority;
      if j < k {
        assert rest[j] == fringe[j];
      } else {
        assert rest[j] == fringe[j + 1];
      }
    }
  }

  ghost predicate FringeOkPriority<S, A>(fringe: seq<Prioritized<UcsNode<S, A>>>)
  {
    forall j :: 0 <= j < |fringe| ==> PriorityIsCost(fringe[j])
  }

  /** Popping a least-priority element and recording it in the table keeps the
      invariant, with the new entry not yet expanded. */
  lemma UcsPop<S, A>(p: Problem<S, A>, universe: set<S>, visited: set<S>,
                     fringe: seq<Prioritized<UcsNode<S, A>>>, backtrack: seq<UcsNode<S, A>>,
                     x: Prioritized<UcsNode<S, A>>, rest: seq<Prioritized<UcsNode<S, A>>>, k: nat)
    requires UcsInv(p, universe, visited, fringe, backtrack, |backtrack|)
    requires k < |fringe| && x == fringe[k] && rest == fringe[..k] + fringe[k + 1..]
    requires forall j :: 0 <= j < |fringe| ==> x.priority <= fringe[j].priority
    ensures UcsInv(p, universe, visited, rest, backtrack + [x.item], |backtrack|)
    ensures |backtrack| == 0 ==> x.item == UcsStart(p)
  {
    PopTable(p, fringe, backtrack, k);
    PopQueueOk(p, fringe, backtrack, k);
    PopAccounted(visited, fringe, backtrack, k);
    PopDisjoint(fringe, backtrack, k);
    PopExpanded(p, visited, backtrack, x.item);
    if NonNegativeCosts(p, universe) {
      assert FringeOkPriority(fringe) by {
        forall j | 0 <= j < |fringe| ensures fringe[j].priority == fringe[j].item.costFromRoot {
          assert FringeOk(p, backtrack, fringe[j]);
        }
      }
      PopMonotone(fringe, backtrack, k);
    }
  }

  // Expanding: the fresh successors of the last popped node are pushed.

  /** The successors pushed so far are fresh: not visited before, pairwise
      distinct, and exactly what was added to the visited set. */
  ghost predicate FreshAdded<S, A>(visited: set<S>, visited': set<S>, added: seq<Prioritized<UcsNode<S, A>>>)
  {
    && visited' == visited + QueueStates(added)
    && |visited'| == |visited| + |added|
    && QueueDistinct(added)
    && (forall j :: 0 <= j < |added| ==> added[j].item.state !in visited)
  }

  /** Every pushed element is a successor of `cur`, its priority is its cost
      from the root, which is the cost of `cur` plus the step cost, and its
      parent is `counter`. */
  ghost predicate PushedFrom<S, A>(p: Problem<S, A>, cur: UcsNode<S, A>, counter: nat, added: seq<Prioritized<UcsNode<S, A>>>)
  {
    forall j :: 0 <= j < |added| ==>
      added[j].priority == added[j].item.costFromRoot && added[j].item.parent == counter && UcsLinked(p, added[j].item, cur)
  }

  /** The first `done` successors of `cur` are visited. */
  ghost predicate Covered<S, A>(p: Problem<S, A>, cur: UcsNode<S, A>, done: nat, visited: set<S>)
  {
    && done <= |p.successors(cur.state)|
    && forall i :: 0 <= i < done ==> p.successors(cur.state)[i].state in visited
  }

  /** The effect of the first `done` iterations of one UCS expansion of `cur`
      (popped as number `counter`): `pushed` lists what went onto the fringe,
      in order. */
  ghost predicate UcsPartlyExpanded<S, A>(p: Problem<S, A>, cur: UcsNode<S, A>, counter: nat, done: nat,
                                          visited: set<S>, visited': set<S>, pushed: seq<Prioritized<UcsNode<S, A>>>)
  {
    && Covered(p, cur, done, visited')
    && FreshAdded(visited, visited', pushed)
    && PushedFrom(p, cur, counter, pushed)
  }

  lemma CoveredStep<S, A>(p: Problem<S, A>, cur: UcsNode<S, A>, done: nat, visited: set<S>, visited': set<S>)
    requires Covered(p, cur, done, visited) && visited <= visited'
    requires done < |p.successors(cur.state)| && p.successors(cur.state)[done].state in visited'
    ensures Covered(p, cur, done + 1, visited')
  {
  }

  lemma QueueStatesSnoc<S, A>(q: seq<Prioritized<UcsNode<S, A>>>, x: Prioritized<UcsNode<S, A>>)
    ensures QueueStates(q + [x]) == QueueStates(q) + {x.item.state}
  {
    QueueStatesAppend(q, [x]);
    assert QueueStates([x]) == {x.item.state} by {
      assert [x][0].item.state == x.item.state;
    }
  }

  lemma QueueDistinctSnoc<S, A>(q: seq<Prioritized<UcsNode<S, A>>>, x: Prioritized<UcsNode<S, A>>)
    requires QueueDistinct(q) && x.item.state !in QueueStates(q)
    ensures QueueDistinct(q + [x])
  {
    var a := q + [x];
    forall i, j | 0 <= i < j < |a| ensures a[i].item.state != a[j].item.state {
      assert a[i] == q[i];
      if j == |q| {
        assert q[i].item.state in QueueStates(q);
      } else {
        assert a[j] == q[j];
      }
    }
  }

  lemma FreshAddedStep<S, A>(visited: set<S>, visited': set<S>, added: seq<Prioritized<UcsNode<S, A>>>, x: Prioritized<UcsNode<S, A>>)
    requires FreshAdded(visited, visited', added)
    requires x.item.state !in visited'
    ensures FreshAdded(visited, visited' + {x.item.state}, added + [x])
  {
    QueueStatesSnoc(added, x);
    QueueDistinctSnoc(added, x);
    var a := added + [x];
    forall j | 0 <= j < |a| ensures a[j].item.state !in visited {
      if j < |added| {
        assert a[j] == added[j];
      }
    }
  }

  lemma PushedFromStep<S, A>(p: Problem<S, A>, cur: UcsNode<S, A>, counter: nat, added: seq<Prioritized<UcsNode<S, A>>>, triple: Triple<S, A>)
    requires PushedFrom(p, cur, counter, added)
    requires triple in p.successors(cur.state)
    ensures PushedFrom(p, cur, counter, added + [UcsPush(cur, triple, counter)])
  {
    var x := UcsPush(cur, triple, counter);
    var a := added + [x];
    assert Triple(x.item.state, x.item.action.value, x.item.costFromRoot - cur.costFromRoot) == triple;
    forall j | 0 <= j < |a|
      ensures a[j].priority == a[j].item.costFromRoot && a[j].item.parent == counter && UcsLinked(p, a[j].item, cur)
    {
      if j < |added| {
        assert a[j] == added[j];
      }
    }
  }

  /** The inner loop of UCS: push every successor of `cur` not yet visited,
      with priority equal to its cost from the root and parent `counter`.
      The pushes are returned in order; the caller appends them to the
      fringe. */
  method UcsExpand<S(==), A>(p: Problem<S, A>, ghost universe: set<S>, cur: UcsNode<S, A>, counter: nat, visited: set<S>)
    returns (visited': set<S>, pushed: seq<Prioritized<UcsNode<S, A>>>)
    requires visited <= universe && cur.state in universe && Closed(p, universe)
    ensures UcsPartlyExpanded(p, cur, counter, |p.successors(cur.state)|, visited, visited', pushed)
    ensures visited' <= universe
  {
    var successors := p.successors(cur.state);
    visited', pushed := visited, [];
    assert QueueStates(pushed) == {};
    var i := 0;
    while i < |successors|
      invariant UcsPartlyExpanded(p, cur, counter, i, visited, visited', pushed)
      invariant visited' <= universe
    {
      var triple := successors[i];
      if triple.state !in visited' {
        var x := UcsPush(cur, triple, counter);
        FreshAddedStep(visited, visited', pushed, x);
        PushedFromStep(p, cur, counter, pushed, triple);
        CoveredStep(p, cur, i, visited', visited' + {triple.state});
        visited' := visited' + {triple.state};
        pushed := pushed + [x];
      } else {
        CoveredStep(p, cur, i, visited', visited');
      }
      i := i + 1;
    }
  }

  lemma ExpandQueueOk<S, A>(p: Problem<S, A>, backtrack: seq<UcsNode<S, A>>, fringe: seq<Prioritized<UcsNode<S, A>>>,
                            added: seq<Prioritized<UcsNode<S, A>>>)
    requires |backtrack| > 0
    requires QueueOk(p, backtrack, fringe)
    requires PushedFrom(p, backtrack[|backtrack| - 1], |backtrack| - 1, added)
    ensures QueueOk(p, backtrack, fringe + added)
  {
    var f := fringe + added;
    forall j | 0 <= j < |f| ensures FringeOk(p, backtrack, f[j]) {
      if j < |fringe| {
        assert f[j] == fringe[j];
      } else {
        assert f[j] == added[j - |fringe|];
      }
    }
  }

  lemma ExpandDisjoint<S, A>(visited: set<S>, visited': set<S>, fringe: seq<Prioritized<UcsNode<S, A>>>,
                             backtrack: seq<UcsNode<S, A>>, added: seq<Prioritized<UcsNode<S, A>>>)
    requires Disjoint(fringe, backtrack)
    requires visited == UcsStates(backtrack) + QueueStates(fringe)
    requires FreshAdded(visited, visited', added)
    ensures Disjoint(fringe + added, backtrack)
  {
    var f := fringe + added;
    forall i, j | 0 <= i < j < |f| ensures f[i].item.state != f[j].item.state {
      if i < |fringe| && j >= |fringe| {
        assert f[i] == fringe[i];
        assert fringe[i].item.state in QueueStates(fringe);
        assert f[j] == added[j - |fringe|];
      } else if i >= |fringe| {
        assert f[i] == added[i - |fringe|];
        assert f[j] == added[j - |fringe|];
      } else {
        assert f[i] == fringe[i] && f[j] == fringe[j];
      }
    }
    forall i, j | 0 <= i < |backtrack| && 0 <= j < |f| ensures backtrack[i].state != f[j].item.state {
      if j >= |fringe| {
        assert backtrack[i].state in UcsStates(backtrack);
        assert f[j] == added[j - |fringe|];
      } else {
        assert f[j] == fringe[j];
      }
    }
  }

  lemma ExpandExpanded<S, A>(p: Problem<S, A>, visited: set<S>, visited': set<S>, backtrack: seq<UcsNode<S, A>>, cur: UcsNode<S, A>)
    requires |backtrack| > 0 && cur == backtrack[|backtrack| - 1]
    requires Expanded(p, visited, backtrack, |backtrack| - 1)
    requires visited <= visited'
    requires !p.isGoal(cur.state)
    requires Covered(p, cur, |p.successors(cur.state)|, visited')
    ensures Expanded(p, visited', backtrack, |backtrack|)
  {
    var n := |backtrack| - 1;
    forall k, e | 0 <= k <= n && e in p.successors(backtrack[k].state) ensures e.state in visited' {
      if k == n {
        var i :| 0 <= i < |p.successors(cur.state)| && p.successors(cur.state)[i] == e;
      }
    }
  }

  lemma ExpandAccounted<S, A>(visited: set<S>, visited': set<S>, fringe: seq<Prioritized<UcsNode<S, A>>>,
                              backtrack: seq<UcsNode<S, A>>, added: seq<Prioritized<UcsNode<S, A>>>)
    requires Accounted(visited, fringe, backtrack)
    requires FreshAdded(visited, visited', added)
    ensures Accounted(visited', fringe + added, backtrack)
    ensures visited <= visited'
  {
    QueueStatesAppend(fringe, added);
  }

  lemma ExpandMonotone<S, A>(p: Problem<S, A>, universe: set<S>, backtrack: seq<UcsNode<S, A>>,
                             fringe: seq<Prioritized<UcsNode<S, A>>>, added: seq<Prioritized<UcsNode<S, A>>>)
    requires |backtrack| > 0 && backtrack[|backtrack| - 1].state in universe
    requires NonNegativeCosts(p, universe)
    requires Monotone(backtrack, fringe)
    requires PushedFrom(p, backtrack[|backtrack| - 1], |backtrack| - 1, added)
    ensures Monotone(backtrack, fringe + added)
  {
    var cur := backtrack[|backtrack| - 1];
    var f := fringe + added;
    forall j | 0 <= j < |f| ensures cur.costFromRoot <= f[j].priority {
      if j >= |fringe| {
        var x := added[j - |fringe|];
        assert f[j] == x;
        assert Triple(x.item.state, x.item.action.value, x.item.costFromRoot - cur.costFromRoot) in p.successors(cur.state);
      } else {
        assert f[j] == fringe[j];
      }
    }
  }

  /** Expanding the last popped node re-establishes the invariant with every
      popped node expanded. */
  lemma UcsAfterExpand<S, A>(p: Problem<S, A>, universe: set<S>, visited: set<S>,
                             fringe: seq<Prioritized<UcsNode<S, A>>>, backtrack: seq<UcsNode<S, A>>,
                             visited': set<S>, added: seq<Prioritized<UcsNode<S, A>>>)
    requires |backtrack| > 0
    requires UcsInv(p, universe, visited, fringe, backtrack, |backtrack| - 1)
    requires !p.isGoal(backtrack[|backtrack| - 1].state)
    requires UcsPartlyExpanded(p, backtrack[|backtrack| - 1], |backtrack| - 1, |p.successors(backtrack[|backtrack| - 1].state)|,
                               visited, visited', added)
    requires visited' <= universe
    ensures UcsInv(p, universe, visited', fringe + added, backtrack, |backtrack|)
  {
    ExpandAccounted(visited, visited', fringe, backtrack, added);
    ExpandQueueOk(p, backtrack, fringe, added);
    ExpandDisjoint(visited, visited', fringe, backtrack, added);
    ExpandExpanded(p, visited, visited', backtrack, backtrack[|backtrack| - 1]);
    if NonNegativeCosts(p, universe) {
      assert backtrack[|backtrack| - 1].state in UcsStates(backtrack);
      ExpandMonotone(p, universe, backtrack, fringe, added);
    }
  }

  /** When the fringe runs empty the popped states are closed under successors
      and hold no goal, so no plan from the start reaches a goal. */
  lemma UcsExhaustedNoGoal<S(!new), A(!new)>(p: Problem<S, A>, universe: set<S>, visited: set<S>, backtrack: seq<UcsNode<S, A>>)
    requires UcsInv(p, universe, visited, [], backtrack, |backtrack|)
    ensures NoGoalReachable(p, p.start)
  {
    assert UcsStates(backtrack) == visited;
    assert backtrack[0].state == p.start;
    forall x, e | x in visited && e in p.successors(x) ensures e.state in visited {
      var k :| 0 <= k < |backtrack| && backtrack[k].state == x;
    }
    forall plan, t | Reaches(p, p.start, plan, t) ensures !p.isGoal(t) {
      ReachesStaysInside(p, visited, p.start, plan, t);
      var k :| 0 <= k < |backtrack| && backtrack[k].state == t;
    }
  }

  /** Following PARENT_ID links from entry `from` down to entry 0 and reversing
      the collected actions yields a plan that replays from the start to the
      state of entry `from` at exactly its cost from the root. */
  method UcsPlan<S, A>(p: Problem<S, A>, backtrack: seq<UcsNode<S, A>>, from: nat) returns (path: seq<A>)
    requires UcsTable(p, backtrack) && from < |backtrack|
    ensures ReachesAtCost(p, p.start, path, backtrack[from].state, backtrack[from].costFromRoot)
    ensures from == 0 ==> path == []
  {
    var goal := backtrack[from].state;
    var cost := backtrack[from].costFromRoot;
    path := [];
    var tracker := from;
    while tracker != 0
      invariant 0 <= tracker < |backtrack|
      invariant ReachesAtCost(p, backtrack[tracker].state, Reverse(path), goal, cost - backtrack[tracker].costFromRoot)
      invariant from == 0 ==> path == []
      decreases tracker
    {
      assert UcsEntryLinked(p, backtrack, tracker);
      var node := backtrack[tracker];
      var parent := backtrack[node.parent];
      var action := node.action.value;
      var step := Triple(node.state, action, node.costFromRoot - parent.costFromRoot);
      ReachesAtCostCons(p, parent.state, step, Reverse(path), goal, cost - node.costFromRoot);
      ReverseSnoc(path, action);
      path := path + [action];
      tracker := node.parent;
    }
    path := Reverse(path);
  }

  /** The first half of a round of the UCS main loop: pop a least-priority
      node and record it as the next backtrack entry. */
  method UcsPopStep<S, A>(p: Problem<S, A>, ghost universe: set<S>, visited: set<S>,
                          fringe: seq<Prioritized<UcsNode<S, A>>>, backtrack: seq<UcsNode<S, A>>)
    returns (fringe': seq<Prioritized<UcsNode<S, A>>>, backtrack': seq<UcsNode<S, A>>)
    requires fringe != []
    requires UcsInv(p, universe, visited, fringe, backtrack, |backtrack|)
    ensures |backtrack'| == |backtrack| + 1 <= |universe|
    ensures UcsInv(p, universe, visited, fringe', backtrack', |backtrack|)
  {
    var cur, rest, k := ExtractMin(fringe);
    UcsPop(p, universe, visited, fringe, backtrack, cur, rest, k);
    SubsetCardinality(visited, universe);
    fringe', backtrack' := rest, backtrack + [cur.item];
  }

  /** The second half of a round: expand the last popped node, which is not a
      goal. */
  method UcsExpandStep<S(==), A>(p: Problem<S, A>, ghost universe: set<S>, visited: set<S>,
                                 fringe: seq<Prioritized<UcsNode<S, A>>>, backtrack: seq<UcsNode<S, A>>)
    returns (visited': set<S>, fringe': seq<Prioritized<UcsNode<S, A>>>)
    requires Closed(p, universe)
    requires |backtrack| > 0 && !p.isGoal(backtrack[|backtrack| - 1].state)
    requires UcsInv(p, universe, visited, fringe, backtrack, |backtrack| - 1)
    ensures UcsInv(p, universe, visited', fringe', backtrack, |backtrack|)
  {
    var cur := backtrack[|backtrack| - 1];
    assert cur.state in UcsStates(backtrack);
    var pushed;
    visited', pushed := UcsExpand(p, universe, cur, |backtrack| - 1, visited);
    UcsAfterExpand(p, universe, visited, fringe, backtrack, visited', pushed);
    fringe' := fringe + pushed;
  }

  /** What UCS guarantees about its backtrack table once it stops: the start
      node came first, every later node is a successor of an earlier one, no
      state was popped twice, the first `expanded` nodes were not goals, every
      popped state lies in `universe`, and with non-negative step costs the
      popped costs never decrease. */
  ghost predicate UcsSettled<S, A>(p: Problem<S, A>, universe: set<S>, backtrack: seq<UcsNode<S, A>>, expanded: nat)
  {
    && |backtrack| > 0
    && UcsTable(p, backtrack)
    && UcsDistinct(backtrack)
    && expanded <= |backtrack|
    && (forall k :: 0 <= k < expanded ==> !p.isGoal(backtrack[k].state))
    && (forall k :: 0 <= k < |backtrack| ==> backtrack[k].state in universe)
    && (NonNegativeCosts(p, universe) ==>
          forall i, j :: 0 <= i < j < |backtrack| ==> backtrack[i].costFromRoot <= backtrack[j].costFromRoot)
  }

  /** What UCS guarantees about its fringe once it stops: every queued node
      links to a popped parent at priority equal to its cost from the root,
      every successor of an expanded node was popped or is still queued, and
      with non-negative step costs nothing still queued is cheaper than the
      last pop. Together with monotone popped costs, every pop had least cost
      among the nodes queued at the time. */
  ghost predicate UcsFrontier<S, A>(p: Problem<S, A>, universe: set<S>, backtrack: seq<UcsNode<S, A>>, expanded: nat,
                                    fringe: seq<Prioritized<UcsNode<S, A>>>)
  {
    && |backtrack| > 0
    && QueueOk(p, backtrack, fringe)
    && (forall k, e :: 0 <= k < expanded && k < |backtrack| && e in p.successors(backtrack[k].state) ==>
          e.state in UcsStates(backtrack) + QueueStates(fringe))
    && (NonNegativeCosts(p, universe) ==>
          forall j :: 0 <= j < |fringe| ==> backtrack[|backtrack| - 1].costFromRoot <= fringe[j].priority)
  }

  lemma UcsSettles<S, A>(p: Problem<S, A>, universe: set<S>, visited: set<S>,
                         fringe: seq<Prioritized<UcsNode<S, A>>>, backtrack: seq<UcsNode<S, A>>, done: nat)
    requires |backtrack| > 0
    requires UcsInv(p, universe, visited, fringe, backtrack, done)
    ensures UcsSettled(p, universe, backtrack, done)
    ensures UcsFrontier(p, universe, backtrack, done, fringe)
  {
    forall k | 0 <= k < |backtrack| ensures backtrack[k].state in universe {
      assert backtrack[k].state in UcsStates(backtrack);
    }
  }

  /** The UCS main loop: pop a least-priority node, record it as
      `backtrack[counter]`, stop at a goal, expand anything else. */
  method UcsRun<S(==, !new), A(!new)>(p: Problem<S, A>, ghost universe: set<S>)
    returns (found: bool, backtrack: seq<UcsNode<S, A>>, expanded: nat, fringe: seq<Prioritized<UcsNode<S, A>>>)
    requires p.start in universe
    requires Closed(p, universe)
    ensures UcsSettled(p, universe, backtrack, expanded)
    ensures UcsFrontier(p, universe, backtrack, expanded, fringe)
    ensures found ==> expanded + 1 == |backtrack| && p.isGoal(backtrack[expanded].state)
    ensures !found ==> expanded == |backtrack| && NoGoalReachable(p, p.start)
    ensures p.isGoal(p.start) ==> found && expanded == 0
  {
    fringe := [Prioritized(UcsStart(p), 0)];
    var visited := {p.start};
    backtrack := [];
    UcsInit(p, universe);
    while true
      invariant UcsInv(p, universe, visited, fringe, backtrack, |backtrack|)
      invariant |backtrack| <= |universe|
      invariant p.isGoal(p.start) ==> backtrack == []
      decreases |universe| - |backtrack|
    {
      if fringe == [] {
        UcsExhaustedNoGoal(p, universe, visited, backtrack);
        UcsSettles(p, universe, visited, fringe, backtrack, |backtrack|);
        return false, backtrack, |backtrack|, fringe;
      }
      fringe, backtrack := UcsPopStep(p, universe, visited, fringe, backtrack);
      if p.isGoal(backtrack[|backtrack| - 1].state) {
        UcsSettles(p, universe, visited, fringe, backtrack, |backtrack| - 1);
        return true, backtrack, |backtrack| - 1, fringe;
      }
      visited, fringe := UcsExpandStep(p, universe, visited, fringe, backtrack);
    }
  }

  /** Uniform-cost graph search. The fringe is a priority queue keyed by cost
      from the root; a state is marked visited when it is generated, so it is
      pushed at most once; `backtrack[counter]` is the counter-th popped node
      and the plan is rebuilt by following parent counters down to 0.
      `expanded` counts the calls of the successor function. `universe` is a
      finite successor-closed set of states holding the start. */
  method UniformCostSearch<S(==, !new), A(!new)>(p: Problem<S, A>, ghost universe: set<S>)
    returns (r: SearchResult<S, A>, backtrack: seq<UcsNode<S, A>>, expanded: nat, fringe: seq<Prioritized<UcsNode<S, A>>>)
    requires p.start in universe
    requires Closed(p, universe)
    ensures |backtrack| > 0 && backtrack[0] == UcsStart(p)
    ensures UcsTable(p, backtrack)
    ensures UcsDistinct(backtrack)
    ensures expanded <= |backtrack|
    ensures forall k :: 0 <= k < expanded ==> !p.isGoal(backtrack[k].state)
    ensures NonNegativeCosts(p, universe) ==>
              forall i, j :: 0 <= i < j < |backtrack| ==> backtrack[i].costFromRoot <= backtrack[j].costFromRoot
    ensures p.isGoal(p.start) ==> r == Found([], p.start) && expanded == 0
    ensures r.Found? ==>
              && expanded == |backtrack| - 1
              && backtrack[expanded].state == r.goal
              && r.goal in universe
              && p.isGoal(r.goal)
              && ReachesAtCost(p, p.start, r.plan, r.goal, backtrack[expanded].costFromRoot)
    ensures r.Exhausted? ==> expanded == |backtrack| && NoGoalReachable(p, p.start)
    ensures UcsFrontier(p, universe, backtrack, expanded, fringe)
  {
    var found;
    found, backtrack, expanded, fringe := UcsRun(p, universe);
    if !found {
      r := Exhausted;
    } else {
      var path := UcsPlan(p, backtrack, expanded);
      r := Found(path, backtrack[expanded].state);
    }
  }

  // ---------------------------------------------------------------------
  // Heuristics
  // ---------------------------------------------------------------------

  /** The trivial heuristic, which ignores its arguments. */
  function NullHeuristic<S, P>(state: S, problem: P): int
  {
    0
  }

  /** The null heuristic never overestimates: whenever a goal is reachable at
      cost `c` in a problem with non-negative step costs, it estimates at most
      `c`. */
  lemma NullHeuristicAdmissible<S, A>(p: Problem<S, A>, universe: set<S>, s: S, plan: seq<A>, t: S, c: int)
    requires s in universe
    requires Closed(p, universe)
    requires NonNegativeCosts(p, universe)
    requires ReachesAtCost(p, s, plan, t, c) && p.isGoal(t)
    ensures NullHeuristic(s, p) <= c
  {
    CostNonNegative(p, universe, s, plan, t, c);
  }

  /** The null heuristic is consistent along every step of non-negative cost. */
  lemma NullHeuristicConsistent<S, A>(p: Problem<S, A>, universe: set<S>, s: S, e: Triple<S, A>)
    requires s in universe
    requires NonNegativeCosts(p, universe)
    requires e in p.successors(s)
    ensures NullHeuristic(s, p) <= e.cost + NullHeuristic(e.state, p)
  {
  }

  // ---------------------------------------------------------------------
  // The abbreviations
  // ---------------------------------------------------------------------

  /** The algorithms behind the abbreviations bfs, dfs, astar and ucs. */
  datatype Algorithm = BreadthFirst | DepthFirst | AStar | UniformCost

  /** Run the algorithm an abbreviation names. Depth-first and A* search are
      unimplemented and only raise NotDefined, reported here as `None`. */
  method SearchBy<S(==, !new), A(!new)>(alg: Algorithm, p: Problem<S, A>, ghost universe: set<S>)
    returns (r: Option<SearchResult<S, A>>)
    requires p.start in universe
    requires Closed(p, universe)
    ensures r.None? <==> alg.DepthFirst? || alg.AStar?
    ensures r.Some? && p.isGoal(p.start) ==> r.value == Found([], p.start)
    ensures r.Some? && r.value.Found? ==> p.isGoal(r.value.goal) && Reaches(p, p.start, r.value.plan, r.value.goal)
    ensures r.Some? && r.value.Exhausted? ==> NoGoalReachable(p, p.start)
    ensures alg.BreadthFirst? && r.Some? && r.value.Found? ==> ShortestPlan(p, r.value.plan)
    ensures alg.UniformCost? && r.Some? && r.value.Found? ==> exists c :: ReachesAtCost(p, p.start, r.value.plan, r.value.goal, c)
  {
    match alg
    case BreadthFirst =>
      var res, _, _, _ := BreadthFirstSearch(p, universe);
      r := Some(res);
    case UniformCost =>
      var res, backtrack, expanded, _ := UniformCostSearch(p, universe);
      if res.Found? {
        ReachesAtCostReaches(p, p.start, res.plan, res.goal, backtrack[expanded].costFromRoot);
      }
      r := Some(res);
    case DepthFirst =>
      r := None;
    case AStar =>
      r := None;
  }
}
